=== FILE: README.md ===
# iterm: keystroke interpreter, dump formatter and serial helpers

iterm is a small serial terminal for Linux. It shows every byte that crosses
the line twice: in a hex window, as rows of sixteen cells, and in a "bin"
window, as the character itself. This project models the two pieces of
sequential logic inside it and proves properties about them.

- **iterm.c**
  - `handle_terminal`: a three-state interpreter of console bytes.
    - `~~` sends a tilde.
    - `~.` ends the session.
    - `~c` clears both windows.
    - `~d` hops DTR.
    - `~xNN` sends the byte with hex digits NN.
    - Any other byte after `~` prints the help text.
  - The formatting done by `dump_putchar`.
- **serial.c**
  - The nearest-speed search over `speed_list` in `serial_open`.
  - The `c_cflag`/`c_iflag`/`c_oflag` words `serial_open` composes.
  - The reverse lookup `serial_get_speed`.
  - The read-modify-write of one modem line in `serial_set_rts` and `serial_set_dtr`.

Modules:

- `CChar` (cchar.dfy): bytes, 32-bit `int` wrap-around, and the C-locale character classes.
  - The character classes are `isprint`, `isspace` and `tolower`.
  - It also holds hexadecimal digits.
- `Display` (display.dfy): one call of `dump_putchar` is a pure function.
  - Inputs: the byte counter `hexnum`, an "idle gap elapsed" flag, opaque time-stamp text and the byte.
  - Outputs: the text added to the hex window, the character added to the bin window, and the new counter.
  - `DumpAll` feeds a sequence of bytes, as `dump_printf` does with its formatted text.
- `Interpreter` (interpreter.dfy): `HandleTerminal` is one call of `handle_terminal`.
  - It maps the three statics (`escape`, `in_hex`, `hexval`) and one console byte to new statics.
  - It also returns an action list (write, echo, newline, clear, DTR hop, help) and the return value.
  - `Run` is main's loop: it feeds one byte per call and stops at the first -1.
  - A reference machine (`Mode`, `NextMode`, `Forwards`) states the three states and their transitions; `HandleTerminal` is proved against it.
- `Serial` (serial.dfy): the speed table and the nearest-entry choice.
  - `NearestIndex` computes the choice with exact arithmetic.
  - `SelectSpeedBitAsWritten` computes it with the 32-bit arithmetic of the source.
  - `SerialGetSpeed` is the reverse lookup.
- `Termios` (termios.dfy): the flag words of `serial_open`, and reading the speed back.
- `Modem` (modem.dfy): `serial_set_rts` and `serial_set_dtr` on the modem-control word.

Notes on behaviour:

- Only `~~`, `~.`, `~c`, `~d` and `~xNN` are modelled, because this revision of `handle_terminal` has only those.
- After `~xNN` the line receives the low byte of `hexval`, but the local echo receives the whole `int`. `hexval` is never cleared, so this `int` still carries earlier entries in its upper bits.
  - `StepEcho` proves that the low bytes of the echo equal the bytes written.
- A byte typed in Normal mode is echoed as a signed `char`.
- `hexval << 4` overflows a signed `int` once enough digits have accumulated. C leaves that undefined, and the model takes the two's complement wrap-around the targets perform (`ShiftIn`).
- In a hex entry, a byte that is not a hex digit gives whatever `tolower`, `- '0'` and `-= 39` make of it on a signed `char` (`SourceNibble`). The model keeps this value and constrains it only to the range of a `char`. The properties about hex entries require real hex digits.
- The `B9600` fallback of `serial_open` cannot trigger: `FallbackUnreachable` proves it even for the 32-bit scan as written.

## Model

| member | source | states |
|---|---|---|
| Interpreter.HandleTerminal | iterm.c:212-295 | Returns -1 exactly for `~.` and 0 otherwise. From consistent statics it keeps them consistent and moves as the three-state machine NextMode does. It writes one byte exactly when the machine forwards: `c` itself in Normal mode, a tilde after `~`. `hexval` changes only while hex digits are consumed. |
| Interpreter.EscapeStep | iterm.c:223-267 | After `~`: `.` returns -1 with only a newline and keeps the statics. `~` writes one tilde and echoes it only when echo is on. `x` opens a hex entry. Every other byte clears `escape` and writes nothing. |
| Interpreter.DigitStep | iterm.c:269-283 | A byte in an open hex entry shifts its nibble into `hexval` (32-bit). The first digit writes nothing. The second writes the low byte of `hexval` and closes the entry. The echo mirrors the write. No local command is issued. |
| Interpreter.NormalStep | iterm.c:285-292 | In Normal mode `~` only opens the escape. Any other byte is written unchanged. When echo is on it is echoed as a signed char before the write: the actions are exactly echo, then write. |
| Interpreter.SourceNibble | iterm.c:271-273 | The nibble the source computes stays within a signed char, and equals the hexadecimal value of a real hex digit of either case. |
| Interpreter.StepEcho | iterm.c:223-292 | In every state, no echo when echo is off. When echo is on, the low bytes of the echoed values are exactly the bytes written, in order. |
| Interpreter.StepCommands | iterm.c:223-263 | Clear happens exactly for `~c`, DTR hop exactly for `~d`, help exactly for an unknown byte after `~`, and the newline exactly when the call returns -1. |
| Interpreter.RunInvariant | iterm.c:216-292 | Over any run of console bytes the statics stay consistent (never escaping inside a hex entry, `in_hex` at most 2). The echo repeats exactly the bytes sent when enabled, and is empty otherwise. |
| Interpreter.Run | iterm.c:121-126 | main's loop, one call per console byte until the first -1. A session that ends does so on `~.`: the escape flag is still set and the newline is the last action. |
| Interpreter.RunFromStart | iterm.c:216-218 | The statics start zeroed, which is consistent and Normal mode, so from program start the statics stay consistent and the echo repeats exactly the bytes sent. |
| Interpreter.RunAppend | iterm.c:121-126 | Feeding `a` then `b` equals feeding `a + b`. If `a` ends the session, nothing of `b` is read. |
| Interpreter.RunThen | iterm.c:121-126 | Two runs in a row, the first not stopping, write the bytes of both in order and end where the second ends. |
| Interpreter.SendTilde | iterm.c:225-228 | `~~` from Normal writes one tilde, echoes it after the write only when echo is on, and returns to the same Normal statics. |
| Interpreter.StopSequence | iterm.c:230-233 | `~.` from Normal ends the session with only a newline, whatever the echo setting and whatever follows. |
| Interpreter.OpenHex | iterm.c:249-251 | `~x` from Normal writes nothing and opens a hex entry with no digit yet. |
| Interpreter.FirstDigit | iterm.c:269-277 | The first hex digit of an entry writes nothing and waits for the second. |
| Interpreter.SecondDigit | iterm.c:269-282 | The second hex digit writes the low byte of the new `hexval` and closes the entry. |
| Interpreter.ShiftIn | iterm.c:275 | `(hexval << 4) + c` on 32 bits puts the digit in the low four bits. Above it sits the old value moved up four bits, with its top four bits lost. |
| Interpreter.HexPairLowByte | iterm.c:275-278 | Two 4-bit shifts push any earlier `hexval` out of the low byte: the written byte is 16·n1 + n2. |
| Interpreter.TwoDigits | iterm.c:269-282 | Two hex digits in an open entry write exactly the byte they spell, whatever `hexval` held, and return to Normal. |
| Interpreter.SendHexByte | iterm.c:249-282 | `~x` plus two hex digits of either case, from Normal, writes exactly the byte 16·d1 + d2 and returns to Normal. |
| Interpreter.SendOne | iterm.c:285-292 | A byte typed with its tilde doubled reaches the line unchanged and leaves the statics as they were. |
| Interpreter.SendEscaped | iterm.c:223-292 | Typing any byte sequence with tildes doubled sends exactly that sequence and ends in the same Normal statics. |
| Interpreter.SendHexKeys | iterm.c:249-282 | Typing `~x` and the two digits the hex window shows for a byte sends that byte. |
| Interpreter.SendHexTyped | iterm.c:249-282 | Typing back the hex-window digits of any byte sequence as `~xNN` entries sends exactly that sequence. |
| Display.DumpPutchar | iterm.c:320-367 | The counter `hexnum` restarts after an idle gap and then counts the byte. The hex text satisfies HexTextFor for the counter before the increment: a row header is written exactly when `hexnum` is a multiple of 16. Its marker is `+` only when `hexnum` is 0, its stamps are kept and its address is the `%04x` text of `hexnum` (Hex04), which reads back as `hexnum`. Elsewhere only `- `, when `hexnum % 16` is 8, precedes the cell. The text ends with the byte's `%02x ` cell. The bin window shows BinChar of the byte: the byte itself exactly when it is displayable, `.` otherwise. |
| Display.HeaderLayout | iterm.c:339-342 | The row header followed by a cell has the newline, the marker, the stamps, an address that parses back to the counter `hexnum`, and `: `, in that order. |
| Display.HeaderAddress | iterm.c:341 | The address field of a row header is exactly the `%04x` text of the counter `hexnum` (Hex04): lower-case, four digits below 0x10000, unpadded above. |
| Display.HexNumeral | iterm.c:341 | `%x` writes at least one digit, all of them lower-case hexadecimal. |
| Display.Hex04 | iterm.c:341 | `%04x` is lower-case hex text that parses back to the number. It is at least four digits long, and exactly four when the number is below 0x10000. A longer text is not padded: its first digit is not zero. |
| Display.NumeralLeadingDigit | iterm.c:341 | The `%x` numeral of a positive number does not start with a zero. |
| Display.ParseHexNumeral | iterm.c:341 | The `%x` numeral of a number parses back to that number. |
| Display.ParseHexLeadingZeros | iterm.c:341 | Zero padding does not change the value of a hex numeral. |
| Display.NumeralLength | iterm.c:341 | The `%x` numeral has at most k digits exactly when the number is below 16^k. |
| Display.HexCell | iterm.c:347 | A cell is three characters, the last a space. Its two digits are stated by CellShowsByte. |
| Display.RowHeader | iterm.c:339-342 | A header opens with a newline and the marker (`+` exactly when `hexnum` is 0), holds at least the stamps and four address digits, and ends with `: `. |
| Display.Separator | iterm.c:343 | The separator is `- ` exactly when `hexnum % 16` is 8, and empty otherwise. |
| Display.SeparatorOncePerRow | iterm.c:339-343 | Of the sixteen cells of a row, only the ninth is preceded by `- `. |
| Display.CellShowsByte | iterm.c:347 | The two digits of a `%02x ` cell are lower-case and parse back to the byte. |
| Display.BinChar | iterm.c:358-363 | The bin window shows the byte itself exactly when it is printable, white space or backspace, and `.` otherwise. |
| Display.DumpAll | iterm.c:305-317 | Feeding a text byte by byte adds one bin character per byte. The final counter depends only on the idle gaps. |
| Display.DumpCounterNoGap | iterm.c:330-350 | Without an idle gap the counter advances by exactly the number of bytes. |
| Display.DumpCounterAfterGap | iterm.c:330-350 | After the last idle gap, before byte k, the counter equals the number of bytes from k to the end. |
| Display.BinTextPointwise | iterm.c:356-363 | The bin window receives BinChar of each byte, in order. |
| Display.BinTextVerbatim | iterm.c:356-363 | The bin window repeats a sequence verbatim exactly when every byte is displayable, and only displayable characters ever appear. |
| Serial.CodesIncrease | serial.c:22-46 | The speed codes strictly increase along the table. |
| Serial.CodesDistinct | serial.c:22-46 | No two table entries share a speed code. |
| Serial.SpeedsIncrease | serial.c:22-46 | The baud rates strictly increase along the table. |
| Serial.NearestIndex | serial.c:56-67 | With exact arithmetic the scan picks an entry at minimal distance from the requested rate. Every earlier entry is strictly farther. |
| Serial.NearestIndexIs | serial.c:56-67 | The entry the scan picks is the only one with that property. |
| Serial.TableSpeedSelectsItself | serial.c:56-67 | A rate listed in the table selects its own entry. |
| Serial.TieGoesToSlower | serial.c:63 | A rate equally far from two neighbouring entries selects the slower one (`d < d_min` is strict). |
| Serial.TiesExist | serial.c:22-46 | Every pair of neighbouring rates has an integer midpoint, and that midpoint selects the slower neighbour. |
| Serial.SelectSpeedBit | serial.c:56-69 | The code put into `c_cflag` is the code of the nearest entry, and a valid speed code. |
| Serial.AsWrittenDistance | serial.c:62 | `abs(baudrate - s->speed)` on 32-bit `int`s: always an `int`; the exact distance while the difference fits and is not INT_MIN; INT_MIN when the difference is INT_MIN. |
| Serial.ScanAsWritten | serial.c:59-67 | The loop with `d_min`: the candidate stays when no later distance is below `d_min`. Otherwise the result is the first of the least later distances, and it is below `d_min`. |
| Serial.SelectSpeedBitAsWritten | serial.c:56-69 | The code chosen as written is always a valid speed code. For rates above INT_MIN + 4000000 it is the nearest entry's code. |
| Serial.ScanAgrees | serial.c:59-67 | The loop with its `d_min` variable computes the first minimum of its distances. |
| Serial.FallbackUnreachable | serial.c:56-69 | Even with 32-bit arithmetic some entry always beats `d_min = INT_MAX`, so `br == 0` never reaches the `B9600` fallback. |
| Serial.AsWrittenScan | serial.c:56-67 | For rates above INT_MIN + 4000000 no subtraction overflows. The 32-bit scan as written selects the nearest entry. |
| Serial.AsWrittenNearIntMin | serial.c:56-69 | For a rate INT_MIN + m, 0 <= m <= 4000000, the nearest entry is B50. The scan as written selects the entry whose rate is m if there is one. Otherwise it selects B50 when m >= 2000025 and B4000000 below. |
| Serial.AsWrittenAgreesNearIntMin | serial.c:56-69 | For such a rate the two selections agree exactly when m is 50, or m is at least 2000025 and not a table rate. |
| Serial.AsWrittenOverflow | serial.c:62 | For rate INT_MIN the 32-bit scan selects B4000000, while the nearest entry is B50. |
| Serial.SerialGetSpeed | serial.c:94-108 | Returns the rate of the entry with the given code, and 0 exactly when no entry has it. |
| Termios.SerialOpenTermios | serial.c:78-84 | The speed field holds the nearest entry's code, which fits the CBAUD bits. `c_cflag` has CS8, CLOCAL and CREAD, CSTOPB iff stopbits is 2, PARENB iff parity is non-zero, CRTSCTS iff rtscts is non-zero, and nothing else. `c_iflag` is IGNPAR plus IXON, IXOFF and IXANY together iff xonxoff is non-zero. `c_oflag` is exactly OPOST. |
| Termios.ControlFlags | serial.c:78-83 | `c_cflag` without its speed field: CS8, CLOCAL and CREAD always. CSTOPB, PARENB and CRTSCTS each exactly under its option. No other bit. |
| Termios.InputFlags | serial.c:81-84 | `c_iflag`: IGNPAR always. The three software flow-control bits all on or all off, following xonxoff. |
| Termios.CodeFitsField | serial.c:78 | Every speed code fits the CBAUD field, and the other c_cflag bits serial_open sets (CSIZE, CSTOPB, CREAD, PARENB, CLOCAL, CRTSCTS) all lie outside it, so or-ing them keeps the code intact. |
| Termios.ReadBackSpeed | serial.c:94-108 | serial_get_speed after serial_open reports the nearest table rate. A rate in the table round-trips exactly. |
| Modem.SerialSetRts | serial.c:131-143 | RTS is set iff `state == 1`, and cleared for any other value. Every other bit of the status word is unchanged. |
| Modem.SerialSetDtr | serial.c:145-157 | DTR is set iff `state == 1`, and cleared for any other value. Every other bit of the status word is unchanged. |
| Modem.SetRtsLastWins | serial.c:131-143 | Two RTS updates in a row equal the last one alone. In particular, repeating a call changes nothing. |
| Modem.SetDtrLastWins | serial.c:145-157 | Two DTR updates in a row equal the last one alone. In particular, repeating a call changes nothing. |
| Modem.DtrHopEndsHigh | iterm.c:242-247 | The DTR hop drops DTR, then ends with DTR asserted and every other line as it was, provided the second TIOCMGET reads back the word the first TIOCMSET wrote. The input lines (DSR, DCD, CTS, RI) can change during the `sleep(1)`. |

## Left out

- The curses windows, colours, `main`'s `select` loop over two descriptors, option parsing and signal handling are I/O. `Run` feeds console bytes only; serial input (`handle_serial`) only reaches `dump_putchar`.
- The console `read` in `handle_terminal` is unchecked. The model assumes it always yields one byte.
- The `%8.3f` time stamps and the 0.1 s idle test in `dump_putchar` use floating-point wall-clock time. They become an opaque `stamps` text and an `idle` flag supplied by the caller.
- `dump_printf` formats with `vsnprintf`. The model feeds an already formatted text (`DumpAll`).
- The side effects of `~c` (erasing the windows) and `~d` (the ioctls and `sleep(1)`) are action tokens. For `~d`, `Modem.DtrHopEndsHigh` states the net effect on the modem word.
- The help text and the `<DTR hop>` line are printed through `dump_printf`. Only their tokens are modelled.
- Display.DumpPutchar: takes the byte shown in the hex cell (`(unsigned char)c`). For the bin window the source applies `isprint`/`isspace`/`waddch` to the whole `int`. That `int` matches the byte's class for values from -128 to 255, but not for an echoed `hexval` outside -128..255, which the model does not cover. Such values occur: above 255 once an entry has spilled into the upper bits, and below -128 once bit 31 of `hexval` is set, for example after a fourth `~xNN` whose first digit is 8 to f.
- The hex-window counter `hexnum` is an `int` that would wrap after 2^31 bytes without a gap. The model counts with an unbounded `nat`.
- The system calls of serial.c are not modelled: `open`, `tcflush`, `tcsetattr`, `tcgetattr`, `cfgetispeed` and the TIOCMGET/TIOCMSET ioctls. Status words are inputs and outputs, and `tcgetattr` is taken to return what `tcsetattr` set. `set_noncanonical` and `serial_get_mctrl` are system calls only.
- `serial_open` declares its `struct termios` uninitialised, so the fields it does not set (`c_lflag`, `c_cc`, `c_line`) reach `tcsetattr` with indeterminate contents. They are not represented.
- Termios.SerialOpenTermios: sets the speed field from the corrected, exact-arithmetic selection (`Serial.SelectSpeedBit`), not from the 32-bit scan as written. The two agree for every rate above INT_MIN + 4000000 (`Serial.SelectSpeedBitAsWritten`). For a rate INT_MIN + m with 0 <= m <= 4000000 they agree only when m is 50, or m is at least 2000025 and not a table rate (`Serial.AsWrittenAgreesNearIntMin`). At every other such rate serial_open as written stores another code, B4000000 for INT_MIN (see Findings).
- Termios.ReadBackSpeed: reads back the speed set by the corrected selection. As written, the rates INT_MIN + m at which the two selections differ (`Serial.AsWrittenAgreesNearIntMin`) read back a different rate, 4000000 for INT_MIN.
- Termios.SerialOpenTermios: holds the CBAUD field of `c_cflag` as the integer speed code beside the other bits, rather than or-ed into one word. `CodeFitsField` shows that the code fits the field.
- speed.c is a `termios2` ioctl wrapper with no logic of its own. It is not part of this model.
- serial.h declares `serial_open` with four parameters. The model follows the six-parameter definition in serial.c.

## Findings

| source | as written | input that shows it | evidently intended | confidence | as-written member | corrected member |
|---|---|---|---|---|---|---|
| serial.c:62 | `abs(baudrate - s->speed)` is evaluated in 32-bit `int`. For a rate INT_MIN + m with 0 <= m <= 4000000, the distance comes out as 2^31 less the entry's distance from m, or INT_MIN for the entry whose rate is m. The scan then picks that entry if there is one, and otherwise the entry farthest from m. That differs from the nearest entry, B50, except at m = 50 and at off-table m >= 2000025 (`Serial.AsWrittenAgreesNearIntMin`). | baud rate INT_MIN (`-2147483648`): every distance wraps to 2^31 - speed, so the fastest entry looks nearest and B4000000 is selected. | the entry at least distance, B50 for INT_MIN (the exact-arithmetic scan) | not executed | Serial.AsWrittenOverflow | Serial.SelectSpeedBit |

=== FILE: cchar.dfy ===
/*
 * Bytes and the C-library character classes the terminal code relies on.
 *
 * The program never calls setlocale, so every class here is the one of the
 * "C" locale.  A byte read from a descriptor is a value 0..255; where the
 * source does arithmetic on a `char`, that `char` is taken to be signed
 * (two's complement, as on the x86 targets the program is built for).
 */
module CChar {

  /** One byte read from or written to a descriptor. */
  type Byte = x: int | 0 <= x < 256

  /** The bit pattern of a 32-bit C `int`, held as its unsigned value. */
  type Word32 = x: int | 0 <= x < 0x1_0000_0000

  const INT_MAX: int := 0x7fff_ffff
  const INT_MIN: int := -0x8000_0000

  predicate IsInt32(x: int) {
    INT_MIN <= x <= INT_MAX
  }

  /** Two's complement wrap-around of an exact integer into the 32-bit `int` range. */
  function Wrap32(x: int): (r: int)
    ensures IsInt32(r)
    ensures (r - x) % 0x1_0000_0000 == 0
    ensures IsInt32(x) ==> r == x
  {
    (x - INT_MIN) % 0x1_0000_0000 + INT_MIN
  }

  /** The signed `int` whose bit pattern is `w`. */
  function AsSigned(w: Word32): (r: int)
    ensures IsInt32(r)
    ensures r % 256 == w % 256
  {
    if w <= INT_MAX then w else w - 0x1_0000_0000
  }

  /** The value of a byte stored in a (signed) `char`. */
  function SignedChar(b: Byte): (r: int)
    ensures -128 <= r < 128
    ensures r % 256 == b
  {
    if b < 128 then b else b - 256
  }

  /** Two's complement wrap-around of an exact integer into a signed `char`. */
  function WrapChar(x: int): (r: int)
    ensures -128 <= r < 128
    ensures (r - x) % 256 == 0
    ensures -128 <= x < 128 ==> r == x
  {
    (x + 128) % 256 - 128
  }

  /** `isprint` in the C locale: the space and the graphic ASCII characters. */
  predicate IsPrint(c: Byte) {
    0x20 <= c <= 0x7e
  }

  /** `isspace` in the C locale: space, tab, newline, vertical tab, form feed, carriage return. */
  predicate IsSpace(c: Byte) {
    c == 0x20 || 0x09 <= c <= 0x0d
  }

  predicate IsUpper(c: Byte) {
    'A' as int <= c <= 'Z' as int
  }

  /** `tolower` in the C locale: only 'A'..'Z' change. */
  function ToLower(c: Byte): (r: Byte)
    ensures !IsUpper(r)
    ensures IsUpper(c) ==> r - c == 'a' as int - 'A' as int
    ensures !IsUpper(c) ==> r == c
  {
    if IsUpper(c) then c + 32 else c
  }

  /** The digits of lower-case hexadecimal, as `printf("%x")` writes them. */
  const HexAlphabet: string := "0123456789abcdef"

  /** `[0-9a-fA-F]` */
  predicate IsHexDigit(c: Byte) {
    || '0' as int <= c <= '9' as int
    || 'a' as int <= c <= 'f' as int
    || 'A' as int <= c <= 'F' as int
  }

  /** The value of a hexadecimal digit, either case. */
  function HexValue(c: Byte): (v: int)
    requires IsHexDigit(c)
    ensures 0 <= v < 16
    ensures HexAlphabet[v] as int == ToLower(c)
  {
    if c <= '9' as int then c - '0' as int
    else if c <= 'F' as int then c - 'A' as int + 10
    else c - 'a' as int + 10
  }

  /** The lower-case hexadecimal digit for a value 0..15. */
  function HexDigit(v: int): (ch: char)
    requires 0 <= v < 16
    ensures ch as int < 256 && IsHexDigit(ch as int) && !IsUpper(ch as int)
    ensures HexValue(ch as int) == v
  {
    HexAlphabet[v]
  }
}

=== FILE: display.dfy ===
/*
 * The formatting half of iterm.c's dump_putchar: every byte shown on the
 * screen goes to two windows at once, a hex window (rows of 16 cells with a
 * row header) and a bin window (the byte itself, or '.').
 *
 * The two `%8.3f` time fields of a row header are floating point wall-clock
 * readings; here they are an opaque text `stamps` supplied by the caller, and
 * "more than 0.1 s since the previous byte" is the boolean `idle`.
 */
module Display {
  import opened CChar

  /** Text made only of hexadecimal digits. */
  predicate IsHexText(s: string) {
    forall i | 0 <= i < |s| :: s[i] as int < 256 && IsHexDigit(s[i] as int)
  }

  /** The value of a hexadecimal numeral, most significant digit first. */
  function ParseHex(s: string): nat
    requires IsHexText(s)
  {
    if |s| == 0 then 0 else ParseHex(s[..|s| - 1]) * 16 + HexValue(s[|s| - 1] as int)
  }

  /** Hexadecimal text written with the lower-case digits only, as `printf("%x")` writes it. */
  predicate IsLowerHexText(s: string) {
    IsHexText(s) && forall i | 0 <= i < |s| :: !IsUpper(s[i] as int)
  }

  /** The shortest lower-case hexadecimal numeral of `n` (`%x`). */
  function HexNumeral(n: nat): (s: string)
    ensures 1 <= |s|
    ensures IsLowerHexText(s)
    decreases n
  {
    if n < 16 then [HexDigit(n)] else HexNumeral(n / 16) + [HexDigit(n % 16)]
  }

  lemma {:induction false} ParseHexNumeral(n: nat)
    ensures ParseHex(HexNumeral(n)) == n
    decreases n
  {
    if n >= 16 {
      var s := HexNumeral(n);
      assert s[..|s| - 1] == HexNumeral(n / 16);
      ParseHexNumeral(n / 16);
    }
  }

  lemma {:induction false} ParseHexZeros(k: nat)
    ensures IsHexText(seq(k, _ => '0'))
    ensures ParseHex(seq(k, _ => '0')) == 0
  {
    var z := seq(k, _ => '0');
    if k > 0 {
      assert z[..k - 1] == seq(k - 1, _ => '0');
      ParseHexZeros(k - 1);
    }
  }

  /** Leading zeros do not change the value of a numeral. */
  lemma {:induction false} ParseHexLeadingZeros(k: nat, s: string)
    requires IsHexText(s)
    ensures IsHexText(seq(k, _ => '0') + s)
    ensures ParseHex(seq(k, _ => '0') + s) == ParseHex(s)
    decreases |s|
  {
    var z := seq(k, _ => '0');
    ParseHexZeros(k);
    if |s| == 0 {
      assert z + s == z;
    } else {
      var t := z + s;
      assert t[..|t| - 1] == z + s[..|s| - 1];
      assert t[|t| - 1] == s[|s| - 1];
      ParseHexLeadingZeros(k, s[..|s| - 1]);
    }
  }

  function Pow16(k: nat): (p: nat)
    ensures p >= 1
  {
    if k == 0 then 1 else 16 * Pow16(k - 1)
  }

  /** A numeral has at most `k` digits exactly when the value is below 16^k. */
  lemma {:induction false} NumeralLength(n: nat, k: nat)
    requires k >= 1
    ensures |HexNumeral(n)| <= k <==> n < Pow16(k)
    decreases n
  {
    if n >= 16 {
      if k == 1 {
        assert Pow16(1) == 16;
      } else {
        NumeralLength(n / 16, k - 1);
        assert n / 16 < Pow16(k - 1) <==> n < 16 * Pow16(k - 1);
      }
    } else {
      PowAtLeast16(k);
    }
  }

  lemma {:induction false} PowAtLeast16(k: nat)
    requires k >= 1
    ensures Pow16(k) >= 16
  {
    if k > 1 {
      PowAtLeast16(k - 1);
    }
  }

  /** The numeral of a positive number does not start with a zero. */
  lemma {:induction false} NumeralLeadingDigit(n: nat)
    ensures n > 0 ==> HexNumeral(n)[0] != '0'
    decreases n
  {
    if n >= 16 {
      NumeralLeadingDigit(n / 16);
    } else if n > 0 {
      assert HexValue(HexNumeral(n)[0] as int) == n;
    }
  }

  /** `%04x`: the numeral, zero-padded to four digits; a longer numeral is not padded. */
  function Hex04(n: nat): (s: string)
    ensures IsLowerHexText(s)
    ensures ParseHex(s) == n
    ensures |s| >= 4
    ensures |s| == 4 <==> n < 0x10000
    ensures |s| > 4 ==> s[0] != '0'
  {
    var digits := HexNumeral(n);
    ParseHexNumeral(n);
    NumeralLength(n, 4);
    assert Pow16(4) == 0x10000;
    if |digits| < 4 then
      ParseHexLeadingZeros(4 - |digits|, digits);
      LowerPadded(4 - |digits|, digits);
      seq(4 - |digits|, _ => '0') + digits
    else
      NumeralLeadingDigit(n);
      digits
  }

  /** Zero padding keeps a numeral lower-case. */
  lemma LowerPadded(k: nat, s: string)
    requires IsLowerHexText(s)
    ensures IsLowerHexText(seq(k, _ => '0') + s)
  {
    var t := seq(k, _ => '0') + s;
    forall i | 0 <= i < |t| ensures t[i] as int < 256 && IsHexDigit(t[i] as int) && !IsUpper(t[i] as int) {
      if i >= k {
        assert t[i] == s[i - k];
      }
    }
  }

  /** `%02x ` of a byte: one cell of the hex window. */
  function HexCell(c: Byte): (cell: string)
    // two digits (CellShowsByte reads them back) and a space
    ensures |cell| == 3 && cell[2] == ' '
  {
    [HexDigit(c / 16), HexDigit(c % 16), ' ']
  }

  lemma CellShowsByte(c: Byte)
    ensures IsHexText(HexCell(c)[..2])
    ensures ParseHex(HexCell(c)[..2]) == c
    ensures !IsUpper(HexCell(c)[0] as int) && !IsUpper(HexCell(c)[1] as int)
  {
    var d := HexCell(c)[..2];
    var hi := [HexDigit(c / 16)];
    assert d[..1] == hi;
    assert hi[..0] == [];
    assert ParseHex(hi) == c / 16;
    assert ParseHex(d) == (c / 16) * 16 + c % 16;
  }

  /**
   * The header opening each row of 16 cells, for byte counter `hexnum`;
   * `+` marks the first row after a gap.
   */
  function RowHeader(hexnum: nat, stamps: string): (h: string)
    ensures |h| >= 2 + |stamps| + 4 + 2
    ensures h[0] == '\n' && h[1] == (if hexnum == 0 then '+' else ' ')
    ensures h[|h| - 2..] == ": "
  {
    "\n" + (if hexnum == 0 then "+" else " ") + stamps + Hex04(hexnum) + ": "
  }

  /**
   * Text `t` opens a row at byte counter `hexnum`: a newline, the marker
   * ('+' only at 0), the time stamps, the counter as a hexadecimal numeral,
   * ": ", and then one three-character cell.
   */
  predicate HeaderFields(t: string, hexnum: nat, stamps: string) {
    && |t| >= 2 + |stamps| + 4 + 2 + 3
    && t[0] == '\n'
    && t[1] == (if hexnum == 0 then '+' else ' ')
    && t[2..2 + |stamps|] == stamps
    && IsHexText(t[2 + |stamps|..|t| - 5])
    && ParseHex(t[2 + |stamps|..|t| - 5]) == hexnum
    && t[|t| - 5..|t| - 3] == ": "
  }

  /** The address field of a row opened by `t` is exactly the `%04x` text of `hexnum`. */
  predicate AddressField(t: string, hexnum: nat, stamps: string) {
    2 + |stamps| <= |t| - 5 && t[2 + |stamps|..|t| - 5] == Hex04(hexnum)
  }

  /** The address a row header prints is the counter in `%04x`. */
  lemma HeaderAddress(hexnum: nat, stamps: string, cell: string)
    requires |cell| == 3
    ensures AddressField(RowHeader(hexnum, stamps) + cell, hexnum, stamps)
  {
    var marker := if hexnum == 0 then "+" else " ";
    assert RowHeader(hexnum, stamps) == "\n" + marker + stamps + Hex04(hexnum) + ": ";
    Pieces("\n" + marker, stamps, Hex04(hexnum), cell);
  }

  /** A row header followed by a cell has the fields HeaderFields names. */
  lemma HeaderLayout(hexnum: nat, stamps: string, cell: string)
    requires |cell| == 3
    ensures HeaderFields(RowHeader(hexnum, stamps) + cell, hexnum, stamps)
    ensures (RowHeader(hexnum, stamps) + cell)[|RowHeader(hexnum, stamps)|..] == cell
  {
    var h := Hex04(hexnum);
    var marker := if hexnum == 0 then "+" else " ";
    assert RowHeader(hexnum, stamps) == "\n" + marker + stamps + h + ": ";
    Pieces("\n" + marker, stamps, h, cell);
  }

  /** Where each piece of `a + s + h + ": " + cell` lies. */
  lemma Pieces(a: string, s: string, h: string, cell: string)
    requires |a| == 2 && |cell| == 3
    ensures var t := a + s + h + ": " + cell;
      && t[..2] == a
      && t[2..2 + |s|] == s
      && t[2 + |s|..|t| - 5] == h
      && t[|t| - 5..|t| - 3] == ": "
      && t[|t| - 3..] == cell
  {
    var b := a + s;
    var c := b + h;
    var d := c + ": ";
    var t := d + cell;
    SplitAt(d, cell);
    SplitAt(c, ": ");
    SplitAt(b, h);
    SplitAt(a, s);
    Inner(b, h + ": " + cell, 2, |b|);
    assert t == b + (h + ": " + cell);
    Inner(c, ": " + cell, |b|, |c|);
    assert t == c + (": " + cell);
    Inner(d, cell, |c|, |d|);
    Inner(b, h + ": " + cell, 0, 2);
  }

  /** The two halves of a concatenation. */
  lemma SplitAt(x: string, y: string)
    ensures (x + y)[..|x|] == x && (x + y)[|x|..] == y
  {
  }

  /** A slice inside the first half of a concatenation is a slice of that half. */
  lemma Inner(x: string, y: string, i: nat, j: nat)
    requires i <= j <= |x|
    ensures (x + y)[i..j] == x[i..j]
  {
  }

  /** What the bin window shows unchanged: printable, white space, or backspace. */
  predicate ShownInBin(c: Byte) {
    IsPrint(c) || IsSpace(c) || c == 0x08
  }

  /** The bin-window character for a byte. */
  function BinChar(c: Byte): (r: Byte)
    ensures ShownInBin(r)
    ensures r == c <==> ShownInBin(c)
    ensures !ShownInBin(c) ==> r == '.' as int
  {
    if ShownInBin(c) then c else '.' as int
  }

  /** What one call of dump_putchar adds to the hex and bin windows, and the counter it leaves. */
  datatype Glyphs = Glyphs(hexText: string, binChar: Byte, hexnum: nat)

  /**
   * What the hex window receives for byte `c` when the counter stands at
   * `hexnum`: a row header exactly at the start of each row of 16 (its
   * marker '+' only at 0, its address reading back as `hexnum`), otherwise
   * at most the mid-row separator; and then the byte's cell.
   */
  predicate HexTextFor(t: string, hexnum: nat, stamps: string, c: Byte) {
    && |t| >= 3
    && t[|t| - 3..] == HexCell(c)
    && (t[0] == '\n' <==> hexnum % 16 == 0)
    && (hexnum % 16 == 0 ==> HeaderFields(t, hexnum, stamps) && AddressField(t, hexnum, stamps) && (t[1] == '+' <==> hexnum == 0))
    && (hexnum % 16 != 0 ==> t[..|t| - 3] == Separator(hexnum))
  }

  /**
   * One call of dump_putchar: `hexnum` is the byte counter before the call,
   * reset to 0 when an idle gap has elapsed.  The returned counter has moved
   * past this byte.
   */
  function DumpPutchar(hexnum: nat, idle: bool, stamps: string, c: Byte): (r: Glyphs)
    // the counter restarts after an idle gap and then counts this byte
    ensures r.hexnum == (if idle then 0 else hexnum) + 1
    // the hex text is laid out for the counter before the increment
    ensures HexTextFor(r.hexText, r.hexnum - 1, stamps, c)
    // the bin window shows the byte itself exactly when it is displayable, '.' otherwise
    ensures r.binChar == c <==> ShownInBin(c)
    ensures r.binChar == BinChar(c) && ShownInBin(r.binChar)
  {
    var offset := if idle then 0 else hexnum;
    if offset % 16 == 0 then
      RowStart(offset, stamps, c);
      Glyphs(RowHeader(offset, stamps) + HexCell(c), BinChar(c), offset + 1)
    else
      MidRow(offset, stamps, c);
      Glyphs(Separator(offset) + HexCell(c), BinChar(c), offset + 1)
  }

  /** The mid-row separator `- ` before the ninth cell of a row. */
  function Separator(hexnum: nat): (s: string)
    ensures s == "- " <==> hexnum % 16 == 8
    ensures s != "- " ==> s == ""
  {
    if hexnum % 16 == 8 then "- " else ""
  }

  /** Of the sixteen cells of any row, only the ninth is preceded by the separator. */
  lemma SeparatorOncePerRow(row: nat, i: nat)
    requires i < 16
    ensures Separator(16 * row + i) != "" <==> i == 8
  {
    assert (16 * row + i) % 16 == i;
  }

  /** The text of the first byte of a row: its header, then its cell. */
  lemma RowStart(hexnum: nat, stamps: string, c: Byte)
    requires hexnum % 16 == 0
    ensures HexTextFor(RowHeader(hexnum, stamps) + HexCell(c), hexnum, stamps, c)
  {
    HeaderLayout(hexnum, stamps, HexCell(c));
    HeaderAddress(hexnum, stamps, HexCell(c));
  }

  /** The text of any other byte: at most the separator, then its cell. */
  lemma MidRow(hexnum: nat, stamps: string, c: Byte)
    requires hexnum % 16 != 0
    ensures HexTextFor(Separator(hexnum) + HexCell(c), hexnum, stamps, c)
  {
    var t := Separator(hexnum) + HexCell(c);
    assert t[..|t| - 3] == Separator(hexnum);
  }

  /** What a sequence of dump_putchar calls adds to the two windows. */
  datatype Dump = Dump(hexText: string, binText: seq<Byte>, hexnum: nat)

  /** The counter after a run of bytes with gap flags `idles`, starting from `hexnum`. */
  function CounterAfter(hexnum: nat, idles: seq<bool>): nat
    decreases |idles|
  {
    if |idles| == 0 then hexnum else CounterAfter((if idles[0] then 0 else hexnum) + 1, idles[1..])
  }

  function DumpAll(hexnum: nat, idles: seq<bool>, stamps: string, data: seq<Byte>): (d: Dump)
    requires |idles| == |data|
    ensures |d.binText| == |data|
    // the counter depends on the gaps only, never on the bytes or the stamps
    ensures d.hexnum == CounterAfter(hexnum, idles)
    decreases |data|
  {
    if |data| == 0 then Dump("", [], hexnum)
    else
      var g := DumpPutchar(hexnum, idles[0], stamps, data[0]);
      var rest := DumpAll(g.hexnum, idles[1..], stamps, data[1..]);
      Dump(g.hexText + rest.hexText, [g.binChar] + rest.binText, rest.hexnum)
  }

  /** Without an idle gap the counter advances by the length of the run. */
  lemma DumpCounterNoGap(hexnum: nat, idles: seq<bool>, stamps: string, data: seq<Byte>)
    requires |idles| == |data|
    requires forall i | 0 <= i < |idles| :: !idles[i]
    ensures DumpAll(hexnum, idles, stamps, data).hexnum == hexnum + |data|
  {
    CounterNoGap(hexnum, idles);
  }

  lemma {:induction false} CounterNoGap(hexnum: nat, idles: seq<bool>)
    requires forall i | 0 <= i < |idles| :: !idles[i]
    ensures CounterAfter(hexnum, idles) == hexnum + |idles|
    decreases |idles|
  {
    if |idles| > 0 {
      assert !idles[0];
      forall j | 0 <= j < |idles| - 1 ensures !idles[1..][j] {
        assert idles[1..][j] == idles[j + 1];
      }
      CounterNoGap(hexnum + 1, idles[1..]);
    }
  }

  /**
   * After a run whose last idle gap came before byte `k`, the counter is the
   * number of bytes from `k` to the end.
   */
  lemma DumpCounterAfterGap(hexnum: nat, idles: seq<bool>, stamps: string, data: seq<Byte>, k: nat)
    requires |idles| == |data|
    requires k < |idles| && idles[k]
    requires forall j | k < j < |idles| :: !idles[j]
    ensures DumpAll(hexnum, idles, stamps, data).hexnum == |data| - k
  {
    CounterAfterGap(hexnum, idles, k);
  }

  lemma {:induction false} CounterAfterGap(hexnum: nat, idles: seq<bool>, k: nat)
    requires k < |idles| && idles[k]
    requires forall j | k < j < |idles| :: !idles[j]
    ensures CounterAfter(hexnum, idles) == |idles| - k
    decreases |idles|
  {
    var next := (if idles[0] then 0 else hexnum) + 1;
    var tail := idles[1..];
    forall j | k <= j < |tail| ensures !tail[j] {
      assert tail[j] == idles[j + 1];
    }
    if k == 0 {
      CounterNoGap(next, tail);
    } else {
      assert tail[k - 1] == idles[k];
      CounterAfterGap(next, tail, k - 1);
    }
  }

  /** The bin window receives BinChar of each byte, in order, whatever the hex window does. */
  lemma {:induction false} BinTextPointwise(hexnum: nat, idles: seq<bool>, stamps: string, data: seq<Byte>)
    requires |idles| == |data|
    ensures forall i | 0 <= i < |data| :: DumpAll(hexnum, idles, stamps, data).binText[i] == BinChar(data[i])
    decreases |data|
  {
    if |data| > 0 {
      var g := DumpPutchar(hexnum, idles[0], stamps, data[0]);
      var rest := DumpAll(g.hexnum, idles[1..], stamps, data[1..]);
      BinTextPointwise(g.hexnum, idles[1..], stamps, data[1..]);
      var d := DumpAll(hexnum, idles, stamps, data);
      assert d.binText == [g.binChar] + rest.binText;
      forall i | 0 < i < |data| ensures d.binText[i] == BinChar(data[i]) {
        assert d.binText[i] == rest.binText[i - 1];
        assert data[1..][i - 1] == data[i];
      }
    }
  }

  /** The bin window repeats a run of bytes verbatim exactly when every byte is displayable. */
  lemma BinTextVerbatim(hexnum: nat, idles: seq<bool>, stamps: string, data: seq<Byte>)
    requires |idles| == |data|
    ensures DumpAll(hexnum, idles, stamps, data).binText == data <==>
              forall i | 0 <= i < |data| :: ShownInBin(data[i])
    ensures forall i | 0 <= i < |data| :: ShownInBin(DumpAll(hexnum, idles, stamps, data).binText[i])
  {
    BinTextPointwise(hexnum, idles, stamps, data);
    var d := DumpAll(hexnum, idles, stamps, data);
    if forall i | 0 <= i < |data| :: ShownInBin(data[i]) {
      assert d.binText == data;
    }
  }
}

=== FILE: interpreter.dfy ===
/*
 * The keystroke interpreter of iterm.c (handle_terminal) and the part of
 * main's loop that feeds it: one console byte per call, with three statics
 * remembering whether the previous byte was the escape character `~` and how
 * far a `~xNN` hex entry has got.
 *
 * Side effects become action tokens, in the order the source performs them:
 * a byte written to the serial line, a byte echoed to the screen through
 * dump_putchar, and the local commands of the escape menu.
 */
module Interpreter {
  import opened CChar
  import Display

  const Tilde: Byte := '~' as int
  const Dot: Byte := '.' as int
  const KeyClear: Byte := 'c' as int
  const KeyDtrHop: Byte := 'd' as int
  const KeyHex: Byte := 'x' as int

  /** The statics `escape`, `in_hex` and `hexval` of handle_terminal; `hexval` as its 32-bit pattern. */
  datatype Statics = Statics(escape: bool, inHex: int, hexval: Word32)

  /** The statics at program start (all zero). */
  const Initial: Statics := Statics(false, 0, 0)

  datatype Action =
    | Write(b: Byte)   // one byte written to the serial line
    | Echo(v: int)     // the value passed to dump_putchar as local echo
    | Newline          // the newline printed on the way out
    | Clear            // ~c: erase both windows
    | DtrHop           // ~d: drop DTR, wait one second, raise DTR
    | Help             // any other escape byte: print the command summary

  /** What one call of handle_terminal does: new statics, effects, and its return value (-1 ends the session). */
  datatype Reaction = Reaction(next: Statics, actions: seq<Action>, ret: int)

  /** The bytes an action list writes to the line, in order. */
  function Writes(actions: seq<Action>): seq<Byte> {
    if |actions| == 0 then []
    else (if actions[0].Write? then [actions[0].b] else []) + Writes(actions[1..])
  }

  /** The values an action list echoes, in order. */
  function Echoes(actions: seq<Action>): seq<int> {
    if |actions| == 0 then []
    else (if actions[0].Echo? then [actions[0].v] else []) + Echoes(actions[1..])
  }

  /** The byte dump_putchar shows for each echoed value (its `(unsigned char)` cast). */
  function LowBytes(vs: seq<int>): (r: seq<Byte>)
    ensures |r| == |vs|
    ensures forall i | 0 <= i < |vs| :: r[i] == vs[i] % 256
  {
    if |vs| == 0 then [] else [vs[0] % 256] + LowBytes(vs[1..])
  }

  lemma {:induction false} WritesAppend(a: seq<Action>, b: seq<Action>)
    ensures Writes(a + b) == Writes(a) + Writes(b)
    decreases |a|
  {
    if |a| == 0 {
      assert a + b == b;
    } else {
      assert (a + b)[0] == a[0];
      assert (a + b)[1..] == a[1..] + b;
      WritesAppend(a[1..], b);
    }
  }

  lemma {:induction false} EchoesAppend(a: seq<Action>, b: seq<Action>)
    ensures Echoes(a + b) == Echoes(a) + Echoes(b)
    decreases |a|
  {
    if |a| == 0 {
      assert a + b == b;
    } else {
      assert (a + b)[0] == a[0];
      assert (a + b)[1..] == a[1..] + b;
      EchoesAppend(a[1..], b);
    }
  }

  /** Writes and Echoes of one- and two-action lists. */
  lemma ShortLists(a: Action, b: Action)
    ensures Writes([a]) == (if a.Write? then [a.b] else [])
    ensures Echoes([a]) == (if a.Echo? then [a.v] else [])
    ensures Writes([a, b]) == Writes([a]) + Writes([b])
    ensures Echoes([a, b]) == Echoes([a]) + Echoes([b])
  {
    assert [a][1..] == [];
    assert [a, b][1..] == [b];
    assert [b][1..] == [];
  }

  lemma {:induction false} LowBytesAppend(a: seq<int>, b: seq<int>)
    ensures LowBytes(a + b) == LowBytes(a) + LowBytes(b)
  {
  }

  // ---------------------------------------------------------------------
  // The reference machine: the three states the statics encode.

  /** HexEntry(n): `~x` has been typed and `n` of the two digits have arrived. */
  datatype Mode = Normal | Escape | HexEntry(digits: nat)

  /** The statics between calls: never both escaping and in a hex entry, and at most one digit pending. */
  predicate Valid(s: Statics) {
    && !(s.escape && s.inHex != 0)
    && 0 <= s.inHex <= 2
  }

  function ModeOf(s: Statics): (m: Mode)
    requires Valid(s)
    ensures m.HexEntry? ==> m.digits < 2
  {
    if s.escape then Escape else if s.inHex == 0 then Normal else HexEntry(s.inHex - 1)
  }

  /** The transitions of the three-state machine. */
  function NextMode(m: Mode, c: Byte): Mode {
    match m
    case Normal => if c == Tilde then Escape else Normal
    // `~.` ends the session before the escape flag is cleared
    case Escape => if c == Dot then Escape else if c == KeyHex then HexEntry(0) else Normal
    case HexEntry(n) => if n == 0 then HexEntry(1) else Normal
  }

  /** Whether a byte in a given mode sends one byte to the line. */
  predicate Forwards(m: Mode, c: Byte) {
    match m
    case Normal => c != Tilde
    case Escape => c == Tilde
    case HexEntry(n) => n == 1
  }

  // ---------------------------------------------------------------------
  // The source's step.

  /**
   * What the source makes of one byte typed while a hex entry is open:
   * `c = tolower(c); c = c - '0'; if (c > 9) c -= 39;` on a signed `char`.
   * Hex digits give their value; any other byte gives whatever the
   * arithmetic produces, unvalidated.
   */
  function SourceNibble(c: Byte): (n: int)
    ensures -128 <= n < 128
    ensures IsHexDigit(c) ==> n == HexValue(c)
  {
    var shifted := WrapChar(SignedChar(ToLower(c)) - '0' as int);
    if shifted > 9 then WrapChar(shifted - 39) else shifted
  }

  /** `hexval = (hexval << 4) + c` on a 32-bit `int`, as its bit pattern. */
  function ShiftIn(hexval: Word32, c: int): (r: Word32)
    // the digit lands in the low four bits ...
    ensures r % 16 == c % 16
    // ... above it the old value moves up four bits, its top four bits lost
    ensures 0 <= c < 16 ==> r / 16 == hexval % 0x1000_0000
  {
    ShiftSplit(hexval, c);
    (hexval * 16 + c) % 0x1_0000_0000
  }

  /** Multiplying by 16 moves the value up four bits; mod 2^32 keeps its low 28 bits there. */
  lemma ShiftSplit(hexval: Word32, c: int)
    ensures 0 <= c < 16 ==> (hexval * 16 + c) % 0x1_0000_0000 == 16 * (hexval % 0x1000_0000) + c
  {
    var q := hexval / 0x1000_0000;
    var low := hexval % 0x1000_0000;
    assert hexval * 16 + c == q * 0x1_0000_0000 + (16 * low + c);
  }

  function EchoIf(localEcho: bool, v: int): seq<Action> {
    if localEcho then [Echo(v)] else []
  }

  /** handle_terminal when the previous byte was the escape `~`. */
  function EscapeStep(s: Statics, localEcho: bool, c: Byte): (r: Reaction)
    requires s.escape
    ensures r.ret == -1 <==> c == Dot
    ensures r.ret == -1 ==> r.next == s && r.actions == [Newline]
    ensures r.ret == 0 ==> !r.next.escape && r.next.hexval == s.hexval
    ensures r.next.inHex == (if c == KeyHex then 1 else s.inHex)
    ensures Writes(r.actions) == (if c == Tilde then [Tilde] else [])
    ensures Echoes(r.actions) == (if c == Tilde && localEcho then [Tilde] else [])
  {
    if c == Tilde then
      ShortLists(Write(c), Echo(c));
      Reaction(s.(escape := false), [Write(c)] + EchoIf(localEcho, c), 0)
    else if c == Dot then
      // returns before `escape = 0`
      Reaction(s, [Newline], -1)
    else if c == KeyClear then
      Reaction(s.(escape := false), [Clear], 0)
    else if c == KeyDtrHop then
      Reaction(s.(escape := false), [DtrHop], 0)
    else if c == KeyHex then
      Reaction(s.(escape := false, inHex := 1), [], 0)
    else
      Reaction(s.(escape := false), [Help], 0)
  }

  /** handle_terminal while a `~x` hex entry is open: accumulate one digit. */
  function DigitStep(s: Statics, localEcho: bool, c: Byte): (r: Reaction)
    requires !s.escape && s.inHex != 0
    ensures r.ret == 0 && !r.next.escape
    ensures r.next.inHex == (if s.inHex >= 2 then 0 else s.inHex + 1)
    // hexval = (hexval << 4) + c, on a 32-bit int
    ensures r.next.hexval == ShiftIn(s.hexval, SourceNibble(c))
    ensures |Writes(r.actions)| == (if s.inHex >= 2 then 1 else 0)
    ensures s.inHex >= 2 ==> Writes(r.actions) == [r.next.hexval % 256]
    ensures !localEcho ==> Echoes(r.actions) == []
    ensures localEcho ==> LowBytes(Echoes(r.actions)) == Writes(r.actions)
    ensures Clear !in r.actions && DtrHop !in r.actions && Help !in r.actions && Newline !in r.actions
  {
    var hexval := ShiftIn(s.hexval, SourceNibble(c));
    if s.inHex + 1 > 2 then
      // write(fd, &hexval, 1) sends the low byte; the echo gets the whole int
      ShortLists(Write(hexval % 256), Echo(AsSigned(hexval)));
      Reaction(Statics(false, 0, hexval), [Write(hexval % 256)] + EchoIf(localEcho, AsSigned(hexval)), 0)
    else
      Reaction(s.(inHex := s.inHex + 1, hexval := hexval), [], 0)
  }

  /** handle_terminal in Normal mode: `~` opens the escape, anything else is sent. */
  function NormalStep(s: Statics, localEcho: bool, c: Byte): (r: Reaction)
    requires !s.escape && s.inHex == 0
    ensures r.ret == 0 && r.next.inHex == 0 && r.next.hexval == s.hexval
    ensures r.next.escape <==> c == Tilde
    ensures Writes(r.actions) == (if c == Tilde then [] else [c])
    // the echo gets the byte as a signed `char`
    ensures Echoes(r.actions) == (if c != Tilde && localEcho then [SignedChar(c)] else [])
    // ... and echoed before it is written
    ensures c != Tilde && localEcho ==> r.actions == [Echo(SignedChar(c)), Write(c)]
    ensures c != Tilde && !localEcho ==> r.actions == [Write(c)]
    ensures Clear !in r.actions && DtrHop !in r.actions && Help !in r.actions && Newline !in r.actions
  {
    if c == Tilde then
      Reaction(s.(escape := true), [], 0)
    else
      // echoed before it is written
      ShortLists(Echo(SignedChar(c)), Write(c));
      Reaction(s, EchoIf(localEcho, SignedChar(c)) + [Write(c)], 0)
  }

  /** One call of handle_terminal for console byte `c`; `localEcho` is the global `local_echo`. */
  function HandleTerminal(s: Statics, localEcho: bool, c: Byte): (r: Reaction)
    // -1 (end the session) exactly for `~.`, 0 otherwise
    ensures r.ret == -1 <==> s.escape && c == Dot
    ensures r.ret == 0 || r.ret == -1
    // the statics stay consistent and follow the three-state machine
    ensures Valid(s) ==> Valid(r.next)
    ensures Valid(s) ==> ModeOf(r.next) == NextMode(ModeOf(s), c)
    // at most one byte goes to the line, exactly when the machine forwards
    ensures Valid(s) ==> |Writes(r.actions)| == (if Forwards(ModeOf(s), c) then 1 else 0)
    ensures Valid(s) && ModeOf(s) == Normal && c != Tilde ==> Writes(r.actions) == [c]
    ensures s.escape && c == Tilde ==> Writes(r.actions) == [Tilde]
    // hexval changes only while hex digits are consumed
    ensures s.escape || s.inHex == 0 ==> r.next.hexval == s.hexval
  {
    if s.escape then EscapeStep(s, localEcho, c)
    else if s.inHex != 0 then DigitStep(s, localEcho, c)
    else NormalStep(s, localEcho, c)
  }

  /** The echo of one call mirrors exactly what it writes, and only when enabled. */
  lemma StepEcho(s: Statics, localEcho: bool, c: Byte)
    ensures var r := HandleTerminal(s, localEcho, c);
      && (!localEcho ==> Echoes(r.actions) == [])
      && (localEcho ==> LowBytes(Echoes(r.actions)) == Writes(r.actions))
  {
    if s.escape {
      var r := EscapeStep(s, localEcho, c);
      if c == Tilde {
        assert LowBytes([Tilde]) == [Tilde];
      } else {
        assert LowBytes([]) == [];
      }
    }
  }

  /** The local commands of the escape menu: each one exactly for its key after `~`. */
  lemma StepCommands(s: Statics, localEcho: bool, c: Byte)
    ensures var r := HandleTerminal(s, localEcho, c);
      && (Clear in r.actions <==> s.escape && c == KeyClear)
      && (DtrHop in r.actions <==> s.escape && c == KeyDtrHop)
      && (Help in r.actions <==> s.escape && c !in {Tilde, Dot, KeyClear, KeyDtrHop, KeyHex})
      && (Newline in r.actions <==> r.ret == -1)
  {
    var r := HandleTerminal(s, localEcho, c);
    if s.escape {
      if c == Tilde {
        assert r.actions == [Write(c)] + EchoIf(localEcho, c);
      }
    } else if s.inHex != 0 {
      var hexval := ShiftIn(s.hexval, SourceNibble(c));
      if s.inHex + 1 > 2 {
        assert r.actions == [Write(hexval % 256)] + EchoIf(localEcho, AsSigned(hexval));
      }
    } else if c != Tilde {
      assert r.actions == EchoIf(localEcho, SignedChar(c)) + [Write(c)];
    }
  }

  // ---------------------------------------------------------------------
  // main's loop: one byte per call, stopping at the first -1.

  /** The effect of a run of console bytes: final statics, all actions, and whether the session ended. */
  datatype Session = Session(state: Statics, actions: seq<Action>, stopped: bool)

  function Run(s: Statics, localEcho: bool, input: seq<Byte>): (r: Session)
    // a session ends only on `~.`: the escape is still set and the newline is the last action
    ensures r.stopped ==> r.state.escape && |r.actions| > 0 && r.actions[|r.actions| - 1] == Newline
    decreases |input|
  {
    if |input| == 0 then Session(s, [], false)
    else
      var step := HandleTerminal(s, localEcho, input[0]);
      if step.ret == -1 then Session(step.next, step.actions, true)
      else
        var rest := Run(step.next, localEcho, input[1..]);
        Session(rest.state, step.actions + rest.actions, rest.stopped)
  }

  /** Feeding two runs one after the other is feeding their concatenation, unless the first one stops. */
  lemma RunAppend(s: Statics, localEcho: bool, a: seq<Byte>, b: seq<Byte>)
    ensures var ra := Run(s, localEcho, a);
      Run(s, localEcho, a + b) ==
        if ra.stopped then ra
        else
          var rb := Run(ra.state, localEcho, b);
          Session(rb.state, ra.actions + rb.actions, rb.stopped)
  {
    if Run(s, localEcho, a).stopped {
      RunAppendStopped(s, localEcho, a, b);
    } else {
      RunAppendGoes(s, localEcho, a, b);
    }
  }

  /** Whatever follows the `~.` that ends a run is never read. */
  lemma {:induction false} RunAppendStopped(s: Statics, localEcho: bool, a: seq<Byte>, b: seq<Byte>)
    requires Run(s, localEcho, a).stopped
    ensures Run(s, localEcho, a + b) == Run(s, localEcho, a)
    decreases |a|
  {
    var step := HandleTerminal(s, localEcho, a[0]);
    RunFirst(s, localEcho, a, b);
    if step.ret != -1 {
      RunAppendStopped(step.next, localEcho, a[1..], b);
    }
  }

  lemma {:induction false} RunAppendGoes(s: Statics, localEcho: bool, a: seq<Byte>, b: seq<Byte>)
    requires !Run(s, localEcho, a).stopped
    ensures var ra := Run(s, localEcho, a);
      var rb := Run(ra.state, localEcho, b);
      Run(s, localEcho, a + b) == Session(rb.state, ra.actions + rb.actions, rb.stopped)
    decreases |a|
  {
    if |a| == 0 {
      assert a + b == b;
    } else {
      var step := HandleTerminal(s, localEcho, a[0]);
      RunFirst(s, localEcho, a, b);
      assert step.ret != -1;
      RunAppendGoes(step.next, localEcho, a[1..], b);
      AppendStep(s, localEcho, a, b);
    }
  }

  /** The inductive step of RunAppendGoes: the first call, then the rest of `a` followed by `b`. */
  lemma AppendStep(s: Statics, localEcho: bool, a: seq<Byte>, b: seq<Byte>)
    requires |a| > 0 && !Run(s, localEcho, a).stopped
    requires var step := HandleTerminal(s, localEcho, a[0]);
      var tail := Run(step.next, localEcho, a[1..]);
      var rb := Run(tail.state, localEcho, b);
      && step.ret != -1
      && Run(step.next, localEcho, a[1..] + b) == Session(rb.state, tail.actions + rb.actions, rb.stopped)
    ensures var ra := Run(s, localEcho, a);
      var rb := Run(ra.state, localEcho, b);
      Run(s, localEcho, a + b) == Session(rb.state, ra.actions + rb.actions, rb.stopped)
  {
    var step := HandleTerminal(s, localEcho, a[0]);
    RunFirst(s, localEcho, a, b);
    var tail := Run(step.next, localEcho, a[1..]);
    var rb := Run(tail.state, localEcho, b);
    SessionAssoc(step.actions, tail, rb, Run(step.next, localEcho, a[1..] + b));
  }

  lemma SessionAssoc(first: seq<Action>, tail: Session, rb: Session, rest: Session)
    requires rest == Session(rb.state, tail.actions + rb.actions, rb.stopped)
    ensures Session(rest.state, first + rest.actions, rest.stopped)
         == Session(rb.state, (first + tail.actions) + rb.actions, rb.stopped)
  {
    assert first + (tail.actions + rb.actions) == (first + tail.actions) + rb.actions;
  }

  /** The first call of a non-empty run, which `a + b` shares with `a`. */
  lemma RunFirst(s: Statics, localEcho: bool, a: seq<Byte>, b: seq<Byte>)
    requires |a| > 0
    ensures var step := HandleTerminal(s, localEcho, a[0]);
      && Run(s, localEcho, a) == (if step.ret == -1 then Session(step.next, step.actions, true)
           else var rest := Run(step.next, localEcho, a[1..]);
             Session(rest.state, step.actions + rest.actions, rest.stopped))
      && Run(s, localEcho, a + b) == (if step.ret == -1 then Session(step.next, step.actions, true)
           else var rest := Run(step.next, localEcho, a[1..] + b);
             Session(rest.state, step.actions + rest.actions, rest.stopped))
  {
    var ab := a + b;
    assert ab[0] == a[0];
    assert ab[1..] == a[1..] + b;
  }

  /** Over any run the statics stay consistent, and the echo repeats exactly the bytes sent, when enabled. */
  lemma {:induction false} RunInvariant(s: Statics, localEcho: bool, input: seq<Byte>)
    requires Valid(s)
    ensures Valid(Run(s, localEcho, input).state)
    ensures !localEcho ==> Echoes(Run(s, localEcho, input).actions) == []
    ensures localEcho ==> LowBytes(Echoes(Run(s, localEcho, input).actions)) == Writes(Run(s, localEcho, input).actions)
    decreases |input|
  {
    if |input| > 0 {
      var step := HandleTerminal(s, localEcho, input[0]);
      StepEcho(s, localEcho, input[0]);
      if step.ret != -1 {
        var rest := Run(step.next, localEcho, input[1..]);
        RunInvariant(step.next, localEcho, input[1..]);
        WritesAppend(step.actions, rest.actions);
        EchoesAppend(step.actions, rest.actions);
        LowBytesAppend(Echoes(step.actions), Echoes(rest.actions));
      }
    }
  }

  /** The session starts from the zeroed statics in Normal mode, so RunInvariant holds from the first keystroke. */
  lemma RunFromStart(localEcho: bool, input: seq<Byte>)
    ensures Valid(Initial) && ModeOf(Initial) == Normal
    ensures Valid(Run(Initial, localEcho, input).state)
    ensures !localEcho ==> Echoes(Run(Initial, localEcho, input).actions) == []
    ensures localEcho ==> LowBytes(Echoes(Run(Initial, localEcho, input).actions)) == Writes(Run(Initial, localEcho, input).actions)
  {
    RunInvariant(Initial, localEcho, input);
  }

  /** A run of one byte is one call of handle_terminal. */
  lemma RunOne(s: Statics, localEcho: bool, c: Byte)
    ensures var step := HandleTerminal(s, localEcho, c);
      Run(s, localEcho, [c]) == Session(step.next, step.actions, step.ret == -1)
  {
    assert [c][1..] == [];
    var step := HandleTerminal(s, localEcho, c);
    if step.ret != -1 {
      assert step.actions + [] == step.actions;
    }
  }

  /** Two runs in a row, the first not stopping: the bytes written are those of both, in order. */
  lemma RunThen(s: Statics, localEcho: bool, a: seq<Byte>, b: seq<Byte>)
    requires !Run(s, localEcho, a).stopped
    ensures var ra := Run(s, localEcho, a);
      var rb := Run(ra.state, localEcho, b);
      var r := Run(s, localEcho, a + b);
      && r.stopped == rb.stopped
      && r.state == rb.state
      && Writes(r.actions) == Writes(ra.actions) + Writes(rb.actions)
  {
    RunAppend(s, localEcho, a, b);
    var ra := Run(s, localEcho, a);
    WritesAppend(ra.actions, Run(ra.state, localEcho, b).actions);
  }

  predicate IsNormal(s: Statics) {
    !s.escape && s.inHex == 0
  }

  /** `~~` sends one tilde (echoed after it is sent) and returns to Normal. */
  lemma SendTilde(s: Statics, localEcho: bool)
    requires IsNormal(s)
    ensures Run(s, localEcho, [Tilde, Tilde]) ==
            Session(s, [Write(Tilde)] + (if localEcho then [Echo(Tilde)] else []), false)
  {
    var input := [Tilde, Tilde];
    assert input[1..] == [Tilde];
    assert input[1..][1..] == [];
    var first := HandleTerminal(s, localEcho, Tilde);
    var second := HandleTerminal(first.next, localEcho, Tilde);
    assert first == Reaction(s.(escape := true), [], 0);
    assert second.next == s;
    assert second.actions == [Write(Tilde)] + EchoIf(localEcho, Tilde);
    assert Run(first.next, localEcho, [Tilde]) == Session(s, second.actions + [], false);
    assert Run(s, localEcho, input) == Session(s, [] + (second.actions + []), false);
  }

  /** `~.` ends the session whatever the echo setting, sends nothing, and nothing after it is read. */
  lemma StopSequence(s: Statics, localEcho: bool, rest: seq<Byte>)
    requires IsNormal(s)
    ensures Run(s, localEcho, [Tilde, Dot] + rest) == Session(s.(escape := true), [Newline], true)
  {
    var input := [Tilde, Dot] + rest;
    assert input[0] == Tilde && input[1..][0] == Dot;
  }

  /** The byte written by the second digit: the old hexval is shifted out of the low byte. */
  lemma HexPairLowByte(hv: Word32, n1: int, n2: int)
    requires 0 <= n1 < 16 && 0 <= n2 < 16
    ensures ShiftIn(ShiftIn(hv, n1), n2) % 256 == 16 * n1 + n2
  {
    var m := 0x1_0000_0000;
    var h1 := (hv * 16 + n1) % m;
    var q1 := (hv * 16 + n1) / m;
    assert h1 == hv * 16 + n1 - q1 * m;
    var h2 := (h1 * 16 + n2) % m;
    var q2 := (h1 * 16 + n2) / m;
    assert h2 == h1 * 16 + n2 - q2 * m;
    var k := hv - q1 * 0x1000_0000 - q2 * 0x100_0000;
    assert h2 == 256 * k + (16 * n1 + n2);
    assert h2 % 256 == 16 * n1 + n2;
  }

  /** The first digit of a hex entry is stored and nothing is sent. */
  lemma FirstDigit(s: Statics, localEcho: bool, d: Byte)
    requires !s.escape && s.inHex == 1 && IsHexDigit(d)
    ensures var r := HandleTerminal(s, localEcho, d);
      && r.ret == 0 && Writes(r.actions) == []
      && r.next == Statics(false, 2, ShiftIn(s.hexval, HexValue(d)))
  {
  }

  /** The second digit completes the entry: the low byte of hexval is sent and the entry closes. */
  lemma SecondDigit(s: Statics, localEcho: bool, d: Byte)
    requires !s.escape && s.inHex == 2 && IsHexDigit(d)
    ensures var r := HandleTerminal(s, localEcho, d);
      var hexval := ShiftIn(s.hexval, HexValue(d));
      && r.ret == 0 && Writes(r.actions) == [hexval % 256]
      && r.next == Statics(false, 0, hexval)
  {
  }

  /** Two digits typed into an open hex entry send the byte they spell and close the entry. */
  lemma TwoDigits(s: Statics, localEcho: bool, d1: Byte, d2: Byte)
    requires !s.escape && s.inHex == 1
    requires IsHexDigit(d1) && IsHexDigit(d2)
    ensures var r := Run(s, localEcho, [d1, d2]);
      && !r.stopped
      && IsNormal(r.state)
      && Writes(r.actions) == [16 * HexValue(d1) + HexValue(d2)]
  {
    DigitPair(s, localEcho, d1, d2);
    TwoRuns(s, localEcho, d1, d2);
  }

  /** The two calls of handle_terminal for the digits of a hex entry. */
  lemma DigitPair(s: Statics, localEcho: bool, d1: Byte, d2: Byte)
    requires !s.escape && s.inHex == 1
    requires IsHexDigit(d1) && IsHexDigit(d2)
    ensures var first := HandleTerminal(s, localEcho, d1);
      var second := HandleTerminal(first.next, localEcho, d2);
      && first.ret == 0 && Writes(first.actions) == []
      && second.ret == 0 && IsNormal(second.next)
      && Writes(second.actions) == [16 * HexValue(d1) + HexValue(d2)]
  {
    var first := HandleTerminal(s, localEcho, d1);
    FirstDigit(s, localEcho, d1);
    var n1, n2 := HexValue(d1), HexValue(d2);
    var h1 := ShiftIn(s.hexval, n1);
    assert first.next == Statics(false, 2, h1);
    SecondDigit(first.next, localEcho, d2);
    var second := HandleTerminal(first.next, localEcho, d2);
    assert Writes(second.actions) == [ShiftIn(h1, n2) % 256];
    HexPairLowByte(s.hexval, n1, n2);
  }

  /** A run of two bytes, the first not ending the session. */
  lemma TwoRuns(s: Statics, localEcho: bool, c1: Byte, c2: Byte)
    requires HandleTerminal(s, localEcho, c1).ret != -1
    ensures var first := HandleTerminal(s, localEcho, c1);
      var second := HandleTerminal(first.next, localEcho, c2);
      var r := Run(s, localEcho, [c1, c2]);
      && r.stopped == (second.ret == -1)
      && r.state == second.next
      && Writes(r.actions) == Writes(first.actions) + Writes(second.actions)
  {
    var first := HandleTerminal(s, localEcho, c1);
    RunOne(s, localEcho, c1);
    RunOne(first.next, localEcho, c2);
    RunThen(s, localEcho, [c1], [c2]);
    assert [c1] + [c2] == [c1, c2];
  }

  /**
   * `~x` and two hex digits (either case) send exactly the byte they spell,
   * whatever hex entry came before, and return to Normal.
   */
  lemma SendHexByte(s: Statics, localEcho: bool, d1: Byte, d2: Byte)
    requires IsNormal(s)
    requires IsHexDigit(d1) && IsHexDigit(d2)
    ensures var r := Run(s, localEcho, [Tilde, KeyHex, d1, d2]);
      && !r.stopped
      && IsNormal(r.state)
      && Writes(r.actions) == [16 * HexValue(d1) + HexValue(d2)]
  {
    OpenHex(s, localEcho);
    TwoDigits(s.(inHex := 1), localEcho, d1, d2);
    assert [Tilde, KeyHex] + [d1, d2] == [Tilde, KeyHex, d1, d2];
    RunThen(s, localEcho, [Tilde, KeyHex], [d1, d2]);
  }

  /** `~x` opens a hex entry and sends nothing. */
  lemma OpenHex(s: Statics, localEcho: bool)
    requires IsNormal(s)
    ensures var r := Run(s, localEcho, [Tilde, KeyHex]);
      !r.stopped && r.state == s.(inHex := 1) && Writes(r.actions) == []
  {
    var first := HandleTerminal(s, localEcho, Tilde);
    var second := HandleTerminal(first.next, localEcho, KeyHex);
    assert Writes(first.actions) == [] && Writes(second.actions) == [];
    TwoRuns(s, localEcho, Tilde, KeyHex);
  }

  /** How one byte is typed so that it reaches the line unchanged: a tilde is doubled. */
  function Escaped(c: Byte): seq<Byte> {
    if c == Tilde then [Tilde, Tilde] else [c]
  }

  /** How to type a byte sequence so that it reaches the line unchanged. */
  function EscapeTildes(data: seq<Byte>): (typed: seq<Byte>)
    ensures (forall i | 0 <= i < |data| :: data[i] != Tilde) ==> typed == data
    ensures |typed| >= |data|
  {
    if |data| == 0 then [] else Escaped(data[0]) + EscapeTildes(data[1..])
  }

  /** In Normal mode an escaped byte is sent as it is and the statics do not change. */
  lemma SendOne(s: Statics, localEcho: bool, c: Byte)
    requires IsNormal(s)
    ensures var r := Run(s, localEcho, Escaped(c));
      !r.stopped && r.state == s && Writes(r.actions) == [c]
  {
    if c == Tilde {
      SendTilde(s, localEcho);
      ShortLists(Write(Tilde), Echo(Tilde));
    } else {
      RunOne(s, localEcho, c);
    }
  }

  /** Typing EscapeTildes(data) in Normal mode sends exactly `data` and leaves the statics as they were. */
  lemma {:induction false} SendEscaped(s: Statics, localEcho: bool, data: seq<Byte>)
    requires IsNormal(s)
    ensures var r := Run(s, localEcho, EscapeTildes(data));
      && !r.stopped
      && r.state == s
      && Writes(r.actions) == data
    decreases |data|
  {
    if |data| == 0 {
      assert Writes([]) == [];
    } else {
      SendOne(s, localEcho, data[0]);
      SendEscaped(s, localEcho, data[1..]);
      RunThen(s, localEcho, Escaped(data[0]), EscapeTildes(data[1..]));
      assert data == [data[0]] + data[1..];
    }
  }

  /** The four bytes that enter `c` as a hex entry: `~x` and the two digits the hex window shows. */
  function HexKeys(c: Byte): seq<Byte> {
    var cell := Display.HexCell(c);
    [Tilde, KeyHex, cell[0] as int, cell[1] as int]
  }

  /** How to type a byte sequence as hex entries. */
  function HexTyped(data: seq<Byte>): (typed: seq<Byte>)
    ensures |typed| == 4 * |data|
  {
    if |data| == 0 then [] else HexKeys(data[0]) + HexTyped(data[1..])
  }

  /** One hex entry typed back from the hex window sends the byte shown. */
  lemma SendHexKeys(s: Statics, localEcho: bool, c: Byte)
    requires IsNormal(s)
    ensures var r := Run(s, localEcho, HexKeys(c));
      !r.stopped && IsNormal(r.state) && Writes(r.actions) == [c]
  {
    var cell := Display.HexCell(c);
    Display.CellShowsByte(c);
    var hi: Byte := cell[0] as int;
    var lo: Byte := cell[1] as int;
    SendHexByte(s, localEcho, hi, lo);
    assert 16 * HexValue(hi) + HexValue(lo) == c;
  }

  /** Typing back the digits of the hex window with `~x` sends exactly the bytes shown. */
  lemma {:induction false} SendHexTyped(s: Statics, localEcho: bool, data: seq<Byte>)
    requires IsNormal(s)
    ensures var r := Run(s, localEcho, HexTyped(data));
      && !r.stopped
      && IsNormal(r.state)
      && Writes(r.actions) == data
    decreases |data|
  {
    if |data| == 0 {
      assert Writes([]) == [];
    } else {
      SendHexKeys(s, localEcho, data[0]);
      var rc := Run(s, localEcho, HexKeys(data[0]));
      SendHexTyped(rc.state, localEcho, data[1..]);
      RunThen(s, localEcho, HexKeys(data[0]), HexTyped(data[1..]));
      assert data == [data[0]] + data[1..];
    }
  }
}

=== FILE: modem.dfy ===
/*
 * serial_set_rts and serial_set_dtr (serial.c:131-157): read the
 * modem-control word, set or clear one line, write the word back.  The
 * ioctls are not modelled: TIOCMGET is the `status` argument and TIOCMSET
 * receives the result.  The word is the `int` of those ioctls, 32 bits.
 */
module Modem {
  // modem-control lines (Linux values)
  const TIOCM_DTR: bv32 := 0x002
  const TIOCM_RTS: bv32 := 0x004

  /** serial.c:131-143: TIOCM_RTS is set when `state == 1` and cleared otherwise. */
  function SerialSetRts(status: bv32, state: int): (r: bv32)
    ensures r & TIOCM_RTS != 0 <==> state == 1
    ensures r & !TIOCM_RTS == status & !TIOCM_RTS
  {
    if state == 1 then status | TIOCM_RTS else status & !TIOCM_RTS
  }

  /** serial.c:145-157: TIOCM_DTR is set when `state == 1` and cleared otherwise. */
  function SerialSetDtr(status: bv32, state: int): (r: bv32)
    ensures r & TIOCM_DTR != 0 <==> state == 1
    ensures r & !TIOCM_DTR == status & !TIOCM_DTR
  {
    if state == 1 then status | TIOCM_DTR else status & !TIOCM_DTR
  }

  /** Setting a line twice is setting it once: only the last state written counts. */
  lemma SetRtsLastWins(status: bv32, first: int, second: int)
    ensures SerialSetRts(SerialSetRts(status, first), second) == SerialSetRts(status, second)
  {
    SameWord(SerialSetRts(SerialSetRts(status, first), second), SerialSetRts(status, second), TIOCM_RTS);
  }

  lemma SetDtrLastWins(status: bv32, first: int, second: int)
    ensures SerialSetDtr(SerialSetDtr(status, first), second) == SerialSetDtr(status, second)
  {
    SameWord(SerialSetDtr(SerialSetDtr(status, first), second), SerialSetDtr(status, second), TIOCM_DTR);
  }

  /** Two words agree when they agree inside and outside a mask. */
  lemma SameWord(x: bv32, y: bv32, mask: bv32)
    requires x & mask == y & mask
    requires x & !mask == y & !mask
    ensures x == y
  {
  }

  /**
   * The `~d` DTR hop (iterm.c:242-247): DTR low, then high again.  If the
   * second TIOCMGET reads back what the first TIOCMSET wrote, DTR ends up
   * asserted and every other line as it was.
   */
  lemma DtrHopEndsHigh(status: bv32)
    ensures SerialSetDtr(status, 0) & TIOCM_DTR == 0
    ensures SerialSetDtr(SerialSetDtr(status, 0), 1) == status | TIOCM_DTR
  {
  }
}

=== FILE: serial.dfy ===
/*
 * The speed table of serial.c and what is computed from it: choosing the
 * entry nearest to a requested baud rate (serial_open) and mapping a speed
 * code back to its baud rate (serial_get_speed).
 *
 * `struct speed` holds the code as a plain `int`, and so does the model.
 * The codes are the Linux values of the generic termbits header (written
 * there in octal); the flag words they end up in are in module Termios.
 */
module Serial {
  import opened CChar

  // Speed codes (values of the CBAUD field of c_cflag)
  const B50: int := 0x1
  const B300: int := 0x7
  const B1200: int := 0x9
  const B2400: int := 0xB
  const B4800: int := 0xC
  const B9600: int := 0xD
  const B19200: int := 0xE
  const B38400: int := 0xF
  const B57600: int := 0x1001
  const B115200: int := 0x1002
  const B230400: int := 0x1003
  const B460800: int := 0x1004
  const B500000: int := 0x1005
  const B576000: int := 0x1006
  const B921600: int := 0x1007
  const B1000000: int := 0x1008
  const B1152000: int := 0x1009
  const B1500000: int := 0x100A
  const B2000000: int := 0x100B
  const B2500000: int := 0x100C
  const B3000000: int := 0x100D
  const B3500000: int := 0x100E
  const B4000000: int := 0x100F

  /** One entry of speed_list: a baud rate and its speed code. */
  datatype Speed = Speed(speed: int, bit: int)

  const SpeedList: seq<Speed> := [
    Speed(50, B50), Speed(300, B300), Speed(1200, B1200), Speed(2400, B2400),
    Speed(4800, B4800), Speed(9600, B9600), Speed(19200, B19200), Speed(38400, B38400),
    Speed(57600, B57600), Speed(115200, B115200), Speed(230400, B230400),
    Speed(460800, B460800), Speed(500000, B500000), Speed(576000, B576000),
    Speed(921600, B921600), Speed(1000000, B1000000), Speed(1152000, B1152000),
    Speed(1500000, B1500000), Speed(2000000, B2000000), Speed(2500000, B2500000),
    Speed(3000000, B3000000), Speed(3500000, B3500000), Speed(4000000, B4000000)
  ]

  /** A value of the speed field: B50..B38400 below CBAUDEX, B57600..B4000000 above it. */
  predicate IsSpeedCode(c: int) {
    B50 <= c <= B38400 || B57600 <= c <= B4000000
  }

  lemma CodeValid(k: nat)
    requires k < |SpeedList|
    ensures IsSpeedCode(SpeedList[k].bit)
  {
    assert forall k | 0 <= k < |SpeedList| :: IsSpeedCode(SpeedList[k].bit);
  }

  lemma CodesAdjacent(k: nat)
    requires k + 1 < |SpeedList|
    ensures SpeedList[k].bit < SpeedList[k + 1].bit
  {
    assert forall k | 0 <= k < |SpeedList| - 1 :: SpeedList[k].bit < SpeedList[k + 1].bit;
  }

  /** The codes increase along the table, so no two entries share one. */
  lemma {:induction false} CodesIncrease(i: nat, j: nat)
    requires i < j < |SpeedList|
    ensures SpeedList[i].bit < SpeedList[j].bit
    decreases j - i
  {
    CodesAdjacent(i);
    if i + 1 < j {
      CodesIncrease(i + 1, j);
    }
  }

  lemma CodesDistinct(i: nat, j: nat)
    requires i < |SpeedList| && j < |SpeedList|
    requires SpeedList[i].bit == SpeedList[j].bit
    ensures i == j
  {
    if i < j {
      CodesIncrease(i, j);
    } else if j < i {
      CodesIncrease(j, i);
    }
  }

  lemma SpeedInRange(k: nat)
    requires k < |SpeedList|
    ensures 50 <= SpeedList[k].speed <= 4000000
    ensures SpeedList[k].speed % 2 == 0
  {
    assert forall k | 0 <= k < |SpeedList| :: 50 <= SpeedList[k].speed <= 4000000 && SpeedList[k].speed % 2 == 0;
  }

  lemma SpeedsAdjacent(k: nat)
    requires k + 1 < |SpeedList|
    ensures SpeedList[k].speed < SpeedList[k + 1].speed
  {
    assert forall k | 0 <= k < |SpeedList| - 1 :: SpeedList[k].speed < SpeedList[k + 1].speed;
  }

  /** The table is sorted by strictly increasing baud rate. */
  lemma {:induction false} SpeedsIncrease(i: nat, j: nat)
    requires i < j < |SpeedList|
    ensures SpeedList[i].speed < SpeedList[j].speed
    decreases j - i
  {
    SpeedsAdjacent(i);
    if i + 1 < j {
      SpeedsIncrease(i + 1, j);
    }
  }

  // ---------------------------------------------------------------------
  // Nearest speed

  function Distance(baud: int, speed: int): nat {
    if baud >= speed then baud - speed else speed - baud
  }

  /** The baud rates of the table, in table order. */
  function Speeds(): (sp: seq<int>)
    ensures |sp| == |SpeedList|
    ensures forall k | 0 <= k < |sp| :: sp[k] == SpeedList[k].speed
  {
    seq(|SpeedList|, k requires 0 <= k < |SpeedList| => SpeedList[k].speed)
  }

  predicate Ascending(sp: seq<int>) {
    forall i, j | 0 <= i < j < |sp| :: sp[i] < sp[j]
  }

  lemma SpeedsAscending()
    ensures Ascending(Speeds())
  {
    forall i, j | 0 <= i < j < |SpeedList| ensures Speeds()[i] < Speeds()[j] {
      SpeedsIncrease(i, j);
    }
  }

  function DistancesTo(baud: int, sp: seq<int>): (ds: seq<int>)
    ensures |ds| == |sp|
    ensures forall k | 0 <= k < |ds| :: ds[k] == Distance(baud, sp[k])
  {
    seq(|sp|, k requires 0 <= k < |sp| => Distance(baud, sp[k]))
  }

  /** The exact distance from `baud` to each entry, in table order. */
  function Distances(baud: int): (ds: seq<int>)
    ensures |ds| == |SpeedList|
    ensures forall k | 0 <= k < |ds| :: ds[k] == Distance(baud, SpeedList[k].speed)
  {
    DistancesTo(baud, Speeds())
  }

  /** Position `k` holds a least element of `ds`, and every earlier position a strictly greater one. */
  predicate IsFirstMin(ds: seq<int>, k: nat) {
    && k < |ds|
    && (forall j | 0 <= j < |ds| :: ds[k] <= ds[j])
    && (forall j | 0 <= j < k :: ds[k] < ds[j])
  }

  lemma FirstMinUnique(ds: seq<int>, k1: nat, k2: nat)
    requires IsFirstMin(ds, k1) && IsFirstMin(ds, k2)
    ensures k1 == k2
  {
    assert ds[k1] == ds[k2];
  }

  /**
   * The loop of serial.c:59-67 over exact distances from position `i` on,
   * `best` being the position chosen so far; only a strictly smaller
   * distance (`d < d_min`) replaces it.
   */
  function ScanFirstMin(ds: seq<int>, i: nat, best: nat): (k: nat)
    requires best < i <= |ds|
    requires forall j | 0 <= j < i :: ds[best] <= ds[j]
    requires forall j | 0 <= j < best :: ds[best] < ds[j]
    ensures IsFirstMin(ds, k)
    decreases |ds| - i
  {
    if i == |ds| then best
    else if ds[i] < ds[best] then ScanFirstMin(ds, i + 1, i)
    else ScanFirstMin(ds, i + 1, best)
  }

  /** Entry `k` is the one serial_open means to choose: none is nearer, every earlier one is farther. */
  predicate IsNearest(baud: int, k: nat) {
    IsFirstMin(Distances(baud), k)
  }

  /**
   * The table index serial_open selects for `baud`, with exact arithmetic:
   * the first entry always becomes the candidate, so no fallback is needed.
   */
  function NearestIndex(baud: int): (k: nat)
    ensures IsNearest(baud, k)
  {
    ScanFirstMin(Distances(baud), 1, 0)
  }

  /** NearestIndex finds the nearest entry, whichever way that entry was identified. */
  lemma NearestIndexIs(baud: int, k: nat)
    requires IsNearest(baud, k)
    ensures NearestIndex(baud) == k
  {
    FirstMinUnique(Distances(baud), k, NearestIndex(baud));
  }

  /** A baud rate listed in the table selects its own entry. */
  lemma TableSpeedSelectsItself(k: nat)
    requires k < |SpeedList|
    ensures NearestIndex(SpeedList[k].speed) == k
  {
    var baud := SpeedList[k].speed;
    var ds := Distances(baud);
    forall j | 0 <= j < |SpeedList| && j != k ensures ds[j] > 0 {
      if j < k { SpeedsIncrease(j, k); } else { SpeedsIncrease(k, j); }
    }
    assert IsFirstMin(ds, k);
    NearestIndexIs(baud, k);
  }

  /** A rate exactly as far from two neighbouring entries selects the slower one. */
  lemma TieGoesToSlower(baud: int, k: nat)
    requires k + 1 < |SpeedList|
    requires Distance(baud, SpeedList[k].speed) == Distance(baud, SpeedList[k + 1].speed)
    ensures NearestIndex(baud) == k
  {
    SpeedsAscending();
    TieFirstMin(Speeds(), baud, k);
    NearestIndexIs(baud, k);
  }

  /** Over ascending speeds, the slower of two tied neighbours is the first nearest. */
  lemma TieFirstMin(sp: seq<int>, baud: int, k: nat)
    requires Ascending(sp) && k + 1 < |sp|
    requires Distance(baud, sp[k]) == Distance(baud, sp[k + 1])
    ensures IsFirstMin(DistancesTo(baud, sp), k)
  {
    var ds := DistancesTo(baud, sp);
    forall j | 0 <= j < |sp| ensures ds[k] <= ds[j] && (j < k ==> ds[k] < ds[j]) {
      TieBound(baud, sp[k], sp[k + 1], sp[j]);
    }
  }

  /** Outside a tied pair of speeds, every speed is at least as far, and slower ones strictly farther. */
  lemma TieBound(baud: int, lo: int, hi: int, speed: int)
    requires lo < hi && Distance(baud, lo) == Distance(baud, hi)
    requires speed <= lo || hi <= speed
    ensures Distance(baud, lo) <= Distance(baud, speed)
    ensures speed < lo ==> Distance(baud, lo) < Distance(baud, speed)
  {
  }

  /**
   * Such ties happen: every pair of neighbours has an integer midpoint (a
   * tie, by Midpoint), and that rate selects the slower neighbour.
   */
  lemma TiesExist(k: nat)
    requires k + 1 < |SpeedList|
    ensures (SpeedList[k].speed + SpeedList[k + 1].speed) % 2 == 0
    ensures NearestIndex((SpeedList[k].speed + SpeedList[k + 1].speed) / 2) == k
  {
    SpeedInRange(k);
    SpeedInRange(k + 1);
    SpeedsAscending();
    var sp := Speeds();
    MidpointFirstMin(sp, k);
    NearestIndexIs((sp[k] + sp[k + 1]) / 2, k);
  }

  lemma MidpointFirstMin(sp: seq<int>, k: nat)
    requires Ascending(sp) && k + 1 < |sp|
    requires sp[k] % 2 == 0 && sp[k + 1] % 2 == 0
    ensures (sp[k] + sp[k + 1]) % 2 == 0
    ensures IsFirstMin(DistancesTo((sp[k] + sp[k + 1]) / 2, sp), k)
  {
    Midpoint(sp[k], sp[k + 1]);
    TieFirstMin(sp, (sp[k] + sp[k + 1]) / 2, k);
  }

  /** Two even speeds have an integer midpoint, equally far from both. */
  lemma Midpoint(lo: int, hi: int)
    requires lo % 2 == 0 && hi % 2 == 0 && lo < hi
    ensures (lo + hi) % 2 == 0
    ensures Distance((lo + hi) / 2, lo) == Distance((lo + hi) / 2, hi)
  {
    var a, b := lo / 2, hi / 2;
    assert lo + hi == 2 * (a + b);
  }

  /** The speed code serial_open puts into c_cflag for `baud`. */
  function SelectSpeedBit(baud: int): (br: int)
    ensures br == SpeedList[NearestIndex(baud)].bit
    ensures IsSpeedCode(br)
  {
    CodeValid(NearestIndex(baud));
    SpeedList[NearestIndex(baud)].bit
  }

  // ---------------------------------------------------------------------
  // The scan as written: 32-bit `int` arithmetic starting from d_min = INT_MAX

  /** `abs` of an `int`; on two's complement abs(INT_MIN) stays INT_MIN. */
  function Abs32(x: int): (r: int)
    requires IsInt32(x)
    ensures IsInt32(r)
    ensures x != INT_MIN ==> r >= 0 && (r == x || r == -x)
  {
    if x == INT_MIN then INT_MIN else if x < 0 then -x else x
  }

  /** `abs(baudrate - s->speed)` evaluated on 32-bit `int`s. */
  function AsWrittenDistance(baud: int, speed: int): (d: int)
    requires IsInt32(baud)
    ensures IsInt32(d)
    // exact while the difference fits and is not INT_MIN ...
    ensures IsInt32(baud - speed) && baud - speed != INT_MIN ==> d == Distance(baud, speed)
    // ... and INT_MIN, a negative "distance", when it is INT_MIN
    ensures baud - speed == INT_MIN ==> d == INT_MIN
  {
    Abs32(Wrap32(baud - speed))
  }

  /** The 32-bit distance from `baud` to each entry, in table order. */
  function AsWrittenDistances(baud: int): (ds: seq<int>)
    requires IsInt32(baud)
    ensures |ds| == |SpeedList|
    ensures forall k | 0 <= k < |ds| :: ds[k] == AsWrittenDistance(baud, SpeedList[k].speed)
  {
    seq(|SpeedList|, k requires 0 <= k < |SpeedList| => AsWrittenDistance(baud, SpeedList[k].speed))
  }

  /**
   * The loop of serial.c:59-67 as written, from position `i` on.  `chosen`
   * is the entry whose code `br` holds, or -1 while `br` is still 0; the
   * codes are distinct and non-zero, so this index determines `br` exactly.
   */
  function ScanAsWritten(ds: seq<int>, i: nat, chosen: int, dMin: int): (r: int)
    requires -1 <= chosen < i <= |ds|
    // the candidate stays when no later distance is below d_min ...
    ensures r < i ==> r == chosen && forall j | i <= j < |ds| :: dMin <= ds[j]
    // ... otherwise the first of the least later distances wins
    ensures r >= i ==> && r < |ds| && ds[r] < dMin
                       && (forall j | i <= j < |ds| :: ds[r] <= ds[j])
                       && (forall j | i <= j < r :: ds[r] < ds[j])
    decreases |ds| - i
  {
    if i == |ds| then chosen
    else if ds[i] < dMin then ScanAsWritten(ds, i + 1, i, ds[i])
    else ScanAsWritten(ds, i + 1, chosen, dMin)
  }

  /** serial.c:56-69 as written: the scan from d_min = INT_MAX, then the B9600 fallback for `br == 0`. */
  function SelectSpeedBitAsWritten(baud: int): (br: int)
    requires IsInt32(baud)
    // always the code of some table entry (B9600 is one too)
    ensures IsSpeedCode(br)
    // without wrap-around, the code of the nearest entry
    ensures INT_MIN + 4000000 < baud ==> br == SelectSpeedBit(baud)
  {
    var k := ScanAsWritten(AsWrittenDistances(baud), 0, -1, INT_MAX);
    if k < 0 then
      B9600
    else
      CodeValid(k);
      AsWrittenScan(baud);
      SpeedList[k].bit
  }

  /** Even as written, the scan always picks an entry: the B9600 fallback is dead code. */
  lemma FallbackUnreachable(baud: int)
    requires IsInt32(baud)
    ensures ScanAsWritten(AsWrittenDistances(baud), 0, -1, INT_MAX) >= 0
  {
    var ds := AsWrittenDistances(baud);
    assert SpeedList[0].speed == 50 && SpeedList[1].speed == 300;
    FirstTwoDistances(baud);
    if ds[0] < INT_MAX {
      assert ScanAsWritten(ds, 0, -1, INT_MAX) == ScanAsWritten(ds, 1, 0, ds[0]);
    } else {
      // only baud == 50 - INT_MAX and baud == INT_MIN + 49 leave d_min at INT_MAX
      assert ScanAsWritten(ds, 0, -1, INT_MAX) == ScanAsWritten(ds, 1, -1, INT_MAX);
      assert ScanAsWritten(ds, 1, -1, INT_MAX) == ScanAsWritten(ds, 2, 1, ds[1]);
    }
  }

  /** `abs(baud - 50)` and `abs(baud - 300)` cannot both come out as INT_MAX. */
  lemma FirstTwoDistances(baud: int)
    requires IsInt32(baud)
    ensures AsWrittenDistance(baud, 50) < INT_MAX || AsWrittenDistance(baud, 300) < INT_MAX
  {
    WrapNear(baud, 50);
    WrapNear(baud, 300);
  }

  /** `baud - speed` wraps at most once, and only downwards past INT_MIN. */
  lemma WrapNear(baud: int, speed: int)
    requires IsInt32(baud) && 0 < speed <= 4000000
    ensures Wrap32(baud - speed) == if baud - speed < INT_MIN then baud - speed + 0x1_0000_0000 else baud - speed
  {
  }

  /** Whatever the distances, the two loops agree once the first entry is the candidate. */
  lemma {:induction false} ScanAgrees(ds: seq<int>, i: nat, best: nat)
    requires best < i <= |ds|
    requires forall j | 0 <= j < i :: ds[best] <= ds[j]
    requires forall j | 0 <= j < best :: ds[best] < ds[j]
    ensures ScanAsWritten(ds, i, best, ds[best]) == ScanFirstMin(ds, i, best)
    decreases |ds| - i
  {
    if i < |ds| {
      if ds[i] < ds[best] {
        ScanAgrees(ds, i + 1, i);
      } else {
        ScanAgrees(ds, i + 1, best);
      }
    }
  }

  /** No wrap-around: the 32-bit `abs(baud - speed)` is the exact distance. */
  lemma WrappedDistance(baud: int, speed: int)
    requires INT_MIN + 4000000 < baud <= INT_MAX
    requires 0 < speed <= 4000000
    ensures AsWrittenDistance(baud, speed) == Distance(baud, speed)
  {
    assert IsInt32(baud - speed);
  }

  lemma SafeDistances(baud: int)
    requires INT_MIN + 4000000 < baud <= INT_MAX
    ensures AsWrittenDistances(baud) == Distances(baud)
  {
    forall k | 0 <= k < |SpeedList| ensures AsWrittenDistances(baud)[k] == Distances(baud)[k] {
      SpeedInRange(k);
      WrappedDistance(baud, SpeedList[k].speed);
    }
  }

  /** Where no subtraction overflows, the scan as written picks the nearest entry. */
  lemma AsWrittenScan(baud: int)
    requires IsInt32(baud)
    ensures INT_MIN + 4000000 < baud ==> ScanAsWritten(AsWrittenDistances(baud), 0, -1, INT_MAX) == NearestIndex(baud)
  {
    if INT_MIN + 4000000 < baud {
      SafeDistances(baud);
      var ds := Distances(baud);
      SpeedInRange(0);
      assert ds[0] < INT_MAX;
      assert ScanAsWritten(ds, 0, -1, INT_MAX) == ScanAsWritten(ds, 1, 0, ds[0]);
      ScanAgrees(ds, 1, 0);
    }
  }

  /** Over strictly decreasing distances every entry beats the one before: the scan ends on the last. */
  lemma {:induction false} ScanDecreasing(ds: seq<int>, i: nat)
    requires 1 <= i <= |ds|
    requires forall k | i - 1 <= k < |ds| - 1 :: ds[k + 1] < ds[k]
    ensures ScanAsWritten(ds, i, i - 1, ds[i - 1]) == |ds| - 1
    decreases |ds| - i
  {
    if i < |ds| {
      ScanDecreasing(ds, i + 1);
    }
  }

  lemma IntMinDistance(speed: int)
    requires 0 < speed <= 4000000
    ensures AsWrittenDistance(INT_MIN, speed) == 0x8000_0000 - speed
  {
    assert Wrap32(INT_MIN - speed) == INT_MIN - speed + 0x1_0000_0000;
  }

  /**
   * The overflow: `atoi("-2147483648")` is INT_MIN; as written the scan
   * wraps `INT_MIN - speed` around to 2^31 - speed and selects the fastest
   * entry, although the nearest one is the slowest.
   */
  lemma AsWrittenOverflow()
    ensures SelectSpeedBitAsWritten(INT_MIN) == B4000000
    ensures SelectSpeedBit(INT_MIN) == B50
  {
    var ds := AsWrittenDistances(INT_MIN);
    forall k | 0 <= k < |SpeedList| ensures ds[k] == 0x8000_0000 - SpeedList[k].speed {
      SpeedInRange(k);
      IntMinDistance(SpeedList[k].speed);
    }
    forall k | 0 <= k < |SpeedList| - 1 ensures ds[k + 1] < ds[k] {
      SpeedsAdjacent(k);
    }
    assert ScanAsWritten(ds, 0, -1, INT_MAX) == ScanAsWritten(ds, 1, 0, ds[0]);
    ScanDecreasing(ds, 1);
    SlowestNearest(INT_MIN);
  }

  /** Every entry lies above a rate below 50, so the slowest entry is the nearest. */
  lemma SlowestNearest(baud: int)
    requires baud < 50
    ensures NearestIndex(baud) == 0
  {
    var exact := Distances(baud);
    forall j | 0 < j < |SpeedList| ensures exact[0] < exact[j] {
      SpeedsIncrease(0, j);
    }
    assert IsFirstMin(exact, 0);
    NearestIndexIs(baud, 0);
  }

  /** Even as written the scan ends on the first least distance, since one of them beats INT_MAX. */
  lemma AsWrittenFirstMin(baud: int)
    requires IsInt32(baud)
    ensures ScanAsWritten(AsWrittenDistances(baud), 0, -1, INT_MAX) >= 0
    ensures IsFirstMin(AsWrittenDistances(baud), ScanAsWritten(AsWrittenDistances(baud), 0, -1, INT_MAX))
  {
    FallbackUnreachable(baud);
  }

  /**
   * Near INT_MIN the 32-bit distance turns around: for the rate INT_MIN + m
   * it is 2^31 less the entry's distance from m, and INT_MIN for the entry
   * whose rate is m.
   */
  lemma NearIntMinDistance(m: int, speed: int)
    requires 0 <= m <= 4000000 && 0 < speed <= 4000000
    ensures AsWrittenDistance(INT_MIN + m, speed) == if speed == m then INT_MIN else 0x8000_0000 - Distance(m, speed)
  {
    WrapNear(INT_MIN + m, speed);
  }

  lemma NearIntMinDistances(m: int)
    requires 0 <= m <= 4000000
    ensures forall k | 0 <= k < |SpeedList| ::
      AsWrittenDistances(INT_MIN + m)[k] == if SpeedList[k].speed == m then INT_MIN else 0x8000_0000 - Distance(m, SpeedList[k].speed)
  {
    forall k | 0 <= k < |SpeedList|
      ensures AsWrittenDistances(INT_MIN + m)[k] == if SpeedList[k].speed == m then INT_MIN else 0x8000_0000 - Distance(m, SpeedList[k].speed)
    {
      SpeedInRange(k);
      NearIntMinDistance(m, SpeedList[k].speed);
    }
  }

  /**
   * What the scan as written selects for the rate INT_MIN + m, m up to
   * 4000000: the entry whose rate is m if there is one, otherwise the
   * entry FARTHEST from m, which is B50 from m = 2000025 on (B50 wins the
   * tie there) and B4000000 below.  The nearest entry is B50 throughout.
   */
  lemma AsWrittenNearIntMin(m: int)
    requires 0 <= m <= 4000000
    ensures SelectSpeedBit(INT_MIN + m) == B50
    ensures forall k | 0 <= k < |SpeedList| && SpeedList[k].speed == m :: SelectSpeedBitAsWritten(INT_MIN + m) == SpeedList[k].bit
    ensures (forall k | 0 <= k < |SpeedList| :: SpeedList[k].speed != m) ==>
      SelectSpeedBitAsWritten(INT_MIN + m) == if 2000025 <= m then B50 else B4000000
  {
    SlowestNearest(INT_MIN + m);
    AsWrittenFirstMin(INT_MIN + m);
    forall k | 0 <= k < |SpeedList| && SpeedList[k].speed == m
      ensures ScanAsWritten(AsWrittenDistances(INT_MIN + m), 0, -1, INT_MAX) == k
    {
      NearIntMinOnTable(m, k);
    }
    if forall k | 0 <= k < |SpeedList| :: SpeedList[k].speed != m {
      NearIntMinOffTable(m);
    }
  }

  /** The entry whose rate is m has the distance INT_MIN, below every other. */
  lemma NearIntMinOnTable(m: int, k: nat)
    requires 0 <= m <= 4000000
    requires k < |SpeedList| && SpeedList[k].speed == m
    ensures IsFirstMin(AsWrittenDistances(INT_MIN + m), k)
  {
    var ds := AsWrittenDistances(INT_MIN + m);
    NearIntMinDistances(m);
    forall j | 0 <= j < |SpeedList| && j != k ensures ds[k] < ds[j] {
      if j < k { SpeedsIncrease(j, k); } else { SpeedsIncrease(k, j); }
    }
  }

  /** Off the table, the least distance is that of the entry farthest from m. */
  lemma NearIntMinOffTable(m: int)
    requires 0 <= m <= 4000000
    requires forall k | 0 <= k < |SpeedList| :: SpeedList[k].speed != m
    ensures IsFirstMin(AsWrittenDistances(INT_MIN + m), if 2000025 <= m then 0 else |SpeedList| - 1)
  {
    var ds := AsWrittenDistances(INT_MIN + m);
    var far := if 2000025 <= m then 0 else |SpeedList| - 1;
    NearIntMinDistances(m);
    assert SpeedList[0].speed == 50 && SpeedList[|SpeedList| - 1].speed == 4000000;
    forall j | 0 <= j < |SpeedList| ensures ds[far] <= ds[j] && (j < far ==> ds[far] < ds[j]) {
      SpeedInRange(j);
      if 0 < j < |SpeedList| - 1 {
        SpeedsIncrease(0, j);
        SpeedsIncrease(j, |SpeedList| - 1);
      }
    }
  }

  /**
   * Hence, within 4000000 above INT_MIN, the scan as written agrees with the
   * nearest entry only at INT_MIN + 50 and at the rates from INT_MIN + 2000025
   * on whose distance from INT_MIN is not a table rate.
   */
  lemma AsWrittenAgreesNearIntMin(m: int)
    requires 0 <= m <= 4000000
    ensures SelectSpeedBitAsWritten(INT_MIN + m) == SelectSpeedBit(INT_MIN + m) <==>
      m == 50 || (2000025 <= m && forall k | 0 <= k < |SpeedList| :: SpeedList[k].speed != m)
  {
    AsWrittenNearIntMin(m);
    if k :| 0 <= k < |SpeedList| && SpeedList[k].speed == m {
      if k != 0 {
        CodesIncrease(0, k);
      }
      assert k == 0 <==> m == 50;
    }
  }

  // ---------------------------------------------------------------------
  // Speed lookup

  /** serial_get_speed: the baud rate of the table entry with speed code `br`, or 0. */
  method SerialGetSpeed(br: int) returns (speed: int)
    ensures forall k | 0 <= k < |SpeedList| && SpeedList[k].bit == br :: speed == SpeedList[k].speed
    ensures speed == 0 <==> forall k | 0 <= k < |SpeedList| :: SpeedList[k].bit != br
  {
    var i := 0;
    while i < |SpeedList|
      invariant 0 <= i <= |SpeedList|
      invariant forall k | 0 <= k < i :: SpeedList[k].bit != br
    {
      if SpeedList[i].bit == br {
        SpeedInRange(i);
        forall k | 0 <= k < |SpeedList| && SpeedList[k].bit == br ensures k == i {
          CodesDistinct(k, i);
        }
        return SpeedList[i].speed;
      }
      i := i + 1;
    }
    return 0;
  }
}

=== FILE: termios.dfy ===
/*
 * The flag words serial_open hands to tcsetattr (serial.c:78-84), and
 * reading the speed field back as serial_get_speed does (serial.c:94-108).
 *
 * Flag words are 32-bit (`tcflag_t`).  The constants are the Linux values
 * of the generic termbits header, written there in octal.  The system
 * calls are not modelled: tcsetattr receives the composed Termios, and
 * tcgetattr is taken to return what was set.
 */
module Termios {
  import opened Serial

  // c_cflag
  const CSIZE: bv32 := 0x30
  const CS8: bv32 := 0x30
  const CSTOPB: bv32 := 0x40
  const CREAD: bv32 := 0x80
  const PARENB: bv32 := 0x100
  const CLOCAL: bv32 := 0x800
  const CRTSCTS: bv32 := 0x8000_0000

  // c_iflag
  const IGNPAR: bv32 := 0x4
  const IXON: bv32 := 0x400
  const IXANY: bv32 := 0x800
  const IXOFF: bv32 := 0x1000

  // c_oflag
  const OPOST: bv32 := 0x1

  /**
   * The three flag words serial_open sets; the other fields of the struct
   * are left uninitialised.  The speed field of c_cflag (the CBAUD bits,
   * 0x100F) is held as the integer code cfgetispeed reports; `cflag` holds
   * the other bits of c_cflag.
   */
  datatype Termios = Termios(speed: int, cflag: bv32, iflag: bv32, oflag: bv32)

  /** A number that fits the CBAUD field: only bits 0-3 and bit 12 may be set. */
  predicate FitsSpeedField(c: int) {
    0 <= c < 0x2000 && (c / 16) % 256 == 0
  }

  /**
   * Every speed code fits the CBAUD field, and none of the other c_cflag
   * bits serial_open sets lies in that field, so `br | CS8 | ...` keeps the
   * code intact beside them.
   */
  lemma CodeFitsField(c: int)
    requires IsSpeedCode(c)
    ensures FitsSpeedField(c)
    ensures (CSIZE | CSTOPB | CREAD | PARENB | CLOCAL | CRTSCTS) & 0x100F == 0
  {
  }

  /** serial.c:78-84 */
  function SerialOpenTermios(baud: int, rtscts: int, xonxoff: int, stopbits: int, parity: int): (t: Termios)
    // the speed field holds the nearest table entry's code
    ensures t.speed == SpeedList[NearestIndex(baud)].bit && FitsSpeedField(t.speed)
    // eight data bits, modem lines ignored, receiver on
    ensures t.cflag & CSIZE == CS8 && t.cflag & CLOCAL != 0 && t.cflag & CREAD != 0
    ensures t.cflag & CSTOPB != 0 <==> stopbits == 2
    ensures t.cflag & PARENB != 0 <==> parity != 0
    ensures t.cflag & CRTSCTS != 0 <==> rtscts != 0
    ensures t.cflag & !(CSIZE | CSTOPB | CREAD | PARENB | CLOCAL | CRTSCTS) == 0
    // input: ignore parity errors, software flow control all-or-nothing
    ensures t.iflag & !(IXON | IXOFF | IXANY) == IGNPAR
    ensures t.iflag & (IXON | IXOFF | IXANY) == (if xonxoff != 0 then IXON | IXOFF | IXANY else 0)
    ensures t.oflag == OPOST
  {
    var br := SelectSpeedBit(baud);
    CodeFitsField(br);
    Termios(br, ControlFlags(rtscts, stopbits, parity), InputFlags(xonxoff), OPOST)
  }

  /** c_cflag apart from the speed field: 8N1 with the receiver on, then the optional bits. */
  function ControlFlags(rtscts: int, stopbits: int, parity: int): (cflag: bv32)
    ensures cflag & CSIZE == CS8 && cflag & CLOCAL != 0 && cflag & CREAD != 0
    ensures cflag & CSTOPB != 0 <==> stopbits == 2
    ensures cflag & PARENB != 0 <==> parity != 0
    ensures cflag & CRTSCTS != 0 <==> rtscts != 0
    ensures cflag & !(CSIZE | CSTOPB | CREAD | PARENB | CLOCAL | CRTSCTS) == 0
  {
    var cflag := CS8 | CLOCAL | CREAD;
    var cflag := if stopbits == 2 then cflag | CSTOPB else cflag;
    var cflag := if parity != 0 then cflag | PARENB else cflag;
    if rtscts != 0 then cflag | CRTSCTS else cflag
  }

  /** c_iflag: ignore parity errors; XON/XOFF flow control turns on IXON, IXOFF and IXANY together. */
  function InputFlags(xonxoff: int): (iflag: bv32)
    ensures iflag & !(IXON | IXOFF | IXANY) == IGNPAR
    ensures iflag & (IXON | IXOFF | IXANY) == (if xonxoff != 0 then IXON | IXOFF | IXANY else 0)
  {
    if xonxoff != 0 then IGNPAR | IXON | IXOFF | IXANY else IGNPAR
  }

  /**
   * serial_get_speed after serial_open, tcgetattr reporting what was set:
   * the nearest table rate, and exactly the requested rate when that is in
   * the table.
   */
  method ReadBackSpeed(baud: int, rtscts: int, xonxoff: int, stopbits: int, parity: int) returns (speed: int)
    ensures speed == SpeedList[NearestIndex(baud)].speed
    ensures forall k | 0 <= k < |SpeedList| && SpeedList[k].speed == baud :: speed == baud
  {
    var tios := SerialOpenTermios(baud, rtscts, xonxoff, stopbits, parity);
    speed := SerialGetSpeed(tios.speed);
    forall k | 0 <= k < |SpeedList| && SpeedList[k].speed == baud ensures speed == baud {
      TableSpeedSelectsItself(k);
    }
  }
}
